=== FILE: README.md ===
# Host orchestration of the D3Q19 lattice-Boltzmann / particle simulation

This project models `simulation_main` in `sim_main.c`, the host side of the
OpenCL lattice-Boltzmann solver with suspended particles. It does not model
the numerics. It models what the host asks of OpenCL, and in which order:

- **Launch geometry.** This is computed once before the main loop: the
  interior work size, the velocity-boundary slab, the wall axis, the
  periodic work size, the surface-point count and the split-kernel count.
  The size_t conversions are written out modulo 2^64.
- **Kernel argument table.** `clSetKernelArg` overwrites one slot of one
  kernel. The model keeps the table as a map from kernel to slot to value.
  The fixed bindings made before the loop are one such table (`FixedArgs`).
  Each iteration starts with the distribution-buffer switch (`SwapBuffers`).
  The experimental tangential passes rebind the velocity kernel's axis and
  density flag, and restore both afterwards.
- **Event log.** The log records the host's OpenCL calls in program order:
  buffer creation and upload, kernel enqueues, queue finishes, map, host
  store, unmap, and readback. Each enqueue records the argument values its
  kernel has at that moment, because those are the values the launch uses.
- **The class `Simulation.Simulation`.** It holds the state the host code
  mutates: the argument table, the mapped per-zone particle counts (an
  array zeroed in place), `tanBC_work_size`, `tanAxis`, and the log.
  Each method is proved to append exactly the events of a specification
  function in module `Schedule` (`StepTrace`, `RunTrace`,
  `SimulationTrace`). It also leaves the argument table that specification
  names.
- **Properties of those specification functions:**
  - which buffers collide-stream and the boundary kernels use at each step
    (ping-pong by parity);
  - the kernels each step launches;
  - the number of collide-stream and zone-update launches over the whole
    loop;
  - the placement of the queue barriers relative to dependent launches;
  - the readbacks for video and shear-stress output;
  - the order of the zone rebuild;
  - the shape of the tangential passes.

Modules:

| module | file | content |
|---|---|---|
| `Geometry` | geometry.dfy | configuration, size_t conversion, work sizes |
| `Trace` | trace.dfy | kernels, buffers, argument table, events |
| `Schedule` | schedule.dfy | fixed bindings, buffer switch, phases of a step, traces of a step, a loop, a run |
| `ArgLemmas` | arg_lemmas.dfy | algebra of the argument table across switches and tangential passes |
| `TangentialProperties` | tangential_props.dfy | the tangential passes |
| `StepProperties` | step_props.dfy | kernel sets and rebuild order of a step |
| `StepBarriers` | step_barriers.dfy | barrier placement and readbacks within a step |
| `BufferRoles` | buffer_roles.dfy | read/write buffer roles of collide-stream and the boundary kernels |
| `RunProperties` | run_props.dfy | launch counts over the whole loop and run |
| `Simulation` | simulation.dfy | the class with the mutable host state, and `SimulationMain` |

### Where the model reads the code literally

- **Velocity axis flag.** The dispatch code tests `BoundaryConds[dim] == 1`
  to select a velocity axis. The header defines `BC_BOUNCE_BACK` as 1 and
  `BC_VELOCITY` as 2. The model keeps the literal test
  (`VELOCITY_AXIS_FLAG == 1`).
- **Empty lattice.** `splitKernelSize` computes `1 + (numNodes-1)/maxKernelSize`
  in size_t. For an empty lattice, `numNodes - 1` wraps, so the value is
  2^42 rather than 0 (`SplitKernelSizeOfEmptyLattice`). The value is used
  only by the commented-out split dispatch.
- **Modulus.** C's `%` truncates toward zero and Dafny's `%` is Euclidean.
  The loop only tests `t % f == 0` and `t % 2 == 0`. These tests agree for
  every sign of `f`, so the model uses Dafny's `%` directly.
- **Zero frequencies.** A frequency of zero makes the source's modulus
  undefined. Nonzero frequencies are therefore a precondition
  (`FrequenciesUsable`). `RebuildFreq` is required nonzero only when there
  are particles, because the `&&` in `usingParticles && t % RebuildFreq == 0`
  short-circuits.

## Model

| member | source | states |
|---|---|---|
| Geometry.SizeT | sim_main.c:67-80 | a C integer converted to size_t lies in [0, 2^64), is unchanged when representable, and gains 2^64 when it is a negative value of at least -2^64 |
| Geometry.SplitKernelSize | sim_main.c:68 | definition, no contract: `1 + (numNodes-1)/maxKernelSize` in size_t arithmetic (its properties: `SplitKernelSizeIsCeiling`, `SplitKernelSizeOfEmptyLattice`, `SplitKernelSizeOfLattice`) |
| Geometry.NumSurfPoints | sim_main.c:74 | definition, no contract: `TotalSurfPoints` as size_t when there are particles, otherwise 32 |
| Geometry.InteriorSize | sim_main.c:192 | definition, no contract: `LatticeSize[d]-2` as size_t on each axis (equal to the loop's result by `ComputeWorkSizes`) |
| Geometry.VelocitySlab | sim_main.c:194-200 | definition, no contract: 2 on a flagged axis, `LatticeSize[d]-2` otherwise (equal to the loop's result by `ComputeWorkSizes`) |
| Geometry.TangentialSlab | sim_main.c:359-361 | definition, no contract: 2 on axis i, `LatticeSize-2` on the other two axes (the array `SetTangentialSlab` fills) |
| Schedule.FixedArgs | sim_main.c:211-276 | definition, no contract: the argument table after the fixed `clSetKernelArg` calls, slot by slot for all nine kernels |
| Schedule.SwapBuffers | sim_main.c:295-308 | definition, no contract: the four buffer-switch `clSetKernelArg` calls of step t (their properties: `SwapOverwritesSwap`, `SwitchBindsBuffers`) |
| Schedule.CollidePhase | sim_main.c:326-328 | definition, no contract: the collide-stream launch over the interior at offset (1,1,1) |
| Schedule.ResetPhase | sim_main.c:331-341 | definition, no contract: with particles, `Finish(CPU)`, `Finish(GPU)`, then the force reset over the interior; otherwise nothing |
| Schedule.PeriodicPhase | sim_main.c:343-348 | definition, no contract: the 1D periodic launch over the stream-map entries, then `Finish(GPU)`, `Finish(CPU)` |
| Schedule.TangentialPass | sim_main.c:359-368 | definition, no contract: the velocity launch over the tangential slab of axis i with slot 3 = i and slot 4 = 0 (its shape: `TangentialPassShape`) |
| Schedule.TangentialPasses | sim_main.c:356-371 | definition, no contract: the passes of the flagged axes below n, in axis order (its properties: `TangentialPassesOnePerFlaggedAxis`, `TangentialPassesInAxisOrder`) |
| Schedule.RestoreWallArgs | sim_main.c:372-373 | definition, no contract: slot 3 of the velocity kernel back to `wallAxis`, slot 4 back to `calcRho` |
| Schedule.VelocityPhase | sim_main.c:350-375 | definition, no contract: with a velocity axis, the primary pass over the velocity slab, the tangential passes, then `Finish(GPU)`; otherwise nothing |
| Schedule.CouplingPhase | sim_main.c:377-391 | definition, no contract: with particles, the surface-force launch tiled by `PointsPerWorkGroup`, `Finish(GPU)`, then the summation over the interior; otherwise nothing |
| Schedule.RebuildPhase | sim_main.c:394-408 | definition, no contract: map, zero stores, unmap, zone update on the CPU queue, `Finish(CPU)` (its order: `RebuildPhaseOrder`) |
| Schedule.OutputPhase | sim_main.c:417-430 | definition, no contract: the velocity readback when a video frame is due, then the velocity and `tau_lb` readbacks when a shear-stress sample is due |
| Schedule.StepTraceWith | sim_main.c:326-430 | definition, no contract: the phases of one iteration in program order, with the end-of-step drain before the readbacks (its properties: `StepKernels`, `StepBarriers`, `StepReadbacks`) |
| Schedule.SETUP | sim_main.c:114-177 | definition, no contract: buffer creation with its access mode, then the blocking uploads, in source order |
| Schedule.FinalPhase | sim_main.c:433-460 | definition, no contract: both drains, the map of the particle-fluid forces with particles only, then `Finish(CPU)` |
| Geometry.NumNodes | sim_main.c:67 | definition, no contract: the product of the three lattice sizes converted to size_t (its property: `SplitKernelSizeOfLattice`) |
| Geometry.NumParThreads | sim_main.c:73 | definition, no contract: the product of the three domain-decomposition counts converted to size_t, the global size of the zone-update launch |
| Geometry.PointWorkSize | sim_main.c:75 | definition, no contract: `PointsPerWorkGroup` converted to size_t, the local size of the surface-force launch |
| Geometry.TotalNumZones | sim_main.c:106 | definition, no contract: the product of the three zone counts converted to size_t, the number of host stores in a rebuild |
| Geometry.UsingParticles | sim_main.c:180 | definition, no contract: `NumParticles > 0` |
| Geometry.HasVelocityBoundary | sim_main.c:190-197 | definition, no contract: some axis has `BoundaryConds[d] == 1`, which is when the loop sets `velBoundary` |
| Geometry.PeriodicWorkSize | sim_main.c:208 | definition, no contract: `numPeriodicNodes` converted to size_t, the global size of the periodic launch |
| Trace.SetArg | sim_main.c:296 | definition, no contract: `clSetKernelArg(k, slot, v)`: the table with that one slot of that one kernel rebound (its property: `SetArgOverwritesOneSlot`) |
| Schedule.ReadBuffer | sim_main.c:295-308 | definition, no contract: the buffer bound as collide-stream's source at step t: fA on even steps, fB on odd ones |
| Schedule.WriteBuffer | sim_main.c:295-308 | definition, no contract: the buffer bound as collide-stream's and the boundary kernels' destination at step t: fB on even steps, fA on odd ones |
| Schedule.StepArgs | sim_main.c:295-308 | definition, no contract: the fixed table with the switch of step t applied, the table in force during step t |
| Schedule.ArgsEntering | sim_main.c:286-308 | definition, no contract: the table when iteration t begins: the fixed table for t = 1, else the table of step t - 1 |
| Schedule.StepHead | sim_main.c:326-348 | definition, no contract: collide-stream, the force reset and the periodic stream with its drain |
| Schedule.StepBody | sim_main.c:350-408 | definition, no contract: the velocity phase, the coupling and the rebuild when due |
| Schedule.RebuildsAt | sim_main.c:394 | definition, no contract: step t rebuilds exactly when there are particles and `t % RebuildFreq == 0` |
| Schedule.ZoneCountResets | sim_main.c:399-403 | definition, no contract: one host store of 0 per zone, in index order (its property: `ZoneCountResetsZeroEachZone`) |
| Schedule.RebuildIfDue | sim_main.c:394-408 | definition, no contract: the rebuild phase on a rebuild step, nothing otherwise |
| Schedule.DRAIN | sim_main.c:411-412 | definition, no contract: `clFinish` on the GPU queue, then on the CPU queue |
| Schedule.StepTrace | sim_main.c:286-432 | definition, no contract: iteration t with the table of step t in force (its properties: `Simulation.Simulation.Step`, `StepLaunchCounts`) |
| Schedule.RunTraceFrom | sim_main.c:286-432 | definition, no contract: iterations 1..n of the `for t` loop entered with a given table, each run with that table switched for its step (its properties: the `RunFrom` lemmas, `Simulation.Simulation.Iterate`) |
| Schedule.RunTrace | sim_main.c:286-432 | definition, no contract: iterations 1..n of the `for t` loop entered with the fixed table (its properties: `RunLaunchCounts`, `Simulation.Simulation.Run`) |
| Schedule.SimulationTrace | sim_main.c:39-473 | definition, no contract: setup, the loop over t = 1..MaxIterations, then the final phase (its properties: `SimulationLaunchCounts`, `Simulation.SimulationMain`) |
| Geometry.WallAxis | sim_main.c:186-202 | `wallAxis` is an axis below 3; with a velocity boundary it is flagged and no later axis is; without one it is 0 |
| Geometry.ComputeWorkSizes | sim_main.c:189-202 | the per-axis loop gives `global_work_size[d] = LatticeSize[d]-2` (as size_t) on every axis, `velBC_work_size[d] = 2` exactly on flagged axes and `LatticeSize[d]-2` on the others, `velBoundary` iff some axis is flagged, and `wallAxis` the last flagged axis (0 if none) |
| Geometry.SplitKernelSizeIsCeiling | sim_main.c:67-68 | for 1 <= numNodes < 2^64, `splitKernelSize` is the ceiling of numNodes / (256*128*128): one piece fewer does not cover the lattice, and the pieces do |
| Geometry.SplitKernelSizeOfEmptyLattice | sim_main.c:67-68 | with numNodes = 0 the size_t subtraction wraps and `splitKernelSize` is 2^42 |
| Geometry.SplitKernelSizeOfLattice | sim_main.c:67-68 | applied to the lattice's own `numNodes`: the ceiling of the node count over 256*128*128 when that count is positive and fits size_t, and 2^42 for an empty lattice |
| ArgLemmas.PassOverwritesPass | sim_main.c:356-368 | a later tangential pass rebinds the same slots 3 and 4, so after several passes only the last pass's axis and density flag remain |
| Trace.SetArgOverwritesOneSlot | sim_main.c:296-299 | `clSetKernelArg(k, slot, v)` binds v to that slot and leaves every other slot of k, and every other kernel, unchanged |
| Schedule.LastTangentialAxis | sim_main.c:356-371 | the `tanAxis` left by the tangential loop is the last flagged axis below the bound (no later axis is flagged), and -1 (untouched) exactly when no axis below the bound is flagged |
| ArgLemmas.SetArgTwice | sim_main.c:296-306 | a second `clSetKernelArg` to the same slot hides the first |
| ArgLemmas.SetArgCommute | sim_main.c:296-306 | `clSetKernelArg` calls on different slots commute |
| ArgLemmas.SwapOverwritesSwap | sim_main.c:295-308 | the buffer switch of step t completely overwrites the switch of any earlier step |
| ArgLemmas.StepArgsAfterSwitch | sim_main.c:286-308 | switching the fixed table, or the table step t-1 left, both give the table of step t |
| ArgLemmas.StepArgsBindWallAxis | sim_main.c:222-223 | outside the tangential passes, slot 3 of the velocity kernel holds `wallAxis` and slot 4 holds `calcRho = 1` |
| ArgLemmas.RestoreIsIdentity | sim_main.c:372-373 | restoring slots 3 and 4 when they already hold the wall configuration changes nothing |
| ArgLemmas.PassArgsAgree | sim_main.c:362-373 | a tangential pass launches with the wall-configured arguments except slot 3 = i and slot 4 = 0, and the restoration afterwards gives back the wall-configured table |
| TangentialProperties.TangentialPassCount | sim_main.c:356-371 | the number of tangential passes is the number of axes with `TangentialVelBC[i] == 1` |
| TangentialProperties.TangentialPassMembers | sim_main.c:356-371 | a launch is among the tangential passes iff it is the pass of some flagged axis |
| TangentialProperties.TangentialPassesOnePerFlaggedAxis | sim_main.c:356-371 | one pass per flagged axis and no other |
| TangentialProperties.TangentialPassesInAxisOrder | sim_main.c:356-371 | the passes run in strictly increasing axis order, on axes below 3 |
| TangentialProperties.TangentialPassShape | sim_main.c:359-368 | the pass on axis i is a velocity-kernel launch on the GPU queue at offset (1,1,1), 2 nodes across axis i and `LatticeSize-2` along axes (i+1)%3 and (i+2)%3, with slot 3 = i, slot 4 = 0, and every other slot as in the wall configuration |
| StepProperties.ZoneCountResetsZeroEachZone | sim_main.c:399-403 | the zeroing loop stores 0 into each zone count 0..n-1 once, in index order |
| StepProperties.RebuildPhaseOrder | sim_main.c:394-408 | the rebuild is: map, then the `totalNumZones` zero stores, then unmap, then `update_particle_zones` on the CPU queue over `numParThreads` items, then `Finish(CPU)` |
| StepProperties.HeadKernels | sim_main.c:326-348 | the head of a step launches collide-stream, the force reset exactly when there are particles, and the periodic stream |
| StepProperties.VelocityKernels | sim_main.c:350-375 | the velocity phase launches only the velocity kernel, and does so exactly when some axis is a velocity axis |
| StepProperties.CouplingKernels | sim_main.c:377-391 | the coupling launches the surface-force and summation kernels exactly when there are particles |
| StepProperties.TailKernels | sim_main.c:393-430 | the rebuild launches the zone update exactly on rebuild steps (`usingParticles && t % RebuildFreq == 0`); the readbacks launch nothing |
| StepProperties.StepKernels | sim_main.c:286-432 | the kernels of step t are collide-stream and the periodic stream, the velocity kernel iff some axis is a velocity axis, the three force kernels iff there are particles, and the zone update iff t is a rebuild step; particle dynamics and particle-particle forces never |
| StepBarriers.ResetAfterDrain | sim_main.c:331-341 | in any trace of step shape, both queues are finished between every earlier launch and the force reset |
| StepBarriers.PeriodicDrainedBeforeVelocity | sim_main.c:343-353 | in any trace of step shape, every periodic launch precedes every velocity launch, with both queues finished in between |
| StepBarriers.StencilDrainedBeforeSum | sim_main.c:378-386 | in any trace of step shape, the surface-force launch precedes the summation, with a GPU finish in between |
| StepBarriers.ReadbacksAfterDrain | sim_main.c:411-425 | in any trace of step shape, both queues are finished after every launch and before each readback, and the readbacks are exactly the output events |
| StepBarriers.VelocityPhaseShape | sim_main.c:350-375 | the velocity phase launches only the velocity kernel and reads nothing back |
| StepBarriers.RebuildShape | sim_main.c:393-409 | the rebuild launches only the zone update and reads nothing back |
| StepBarriers.StepBarriers | sim_main.c:326-425 | the four barrier rules above hold for the trace of every step, whatever argument table is in force |
| StepBarriers.StepReadbacks | sim_main.c:416-430 | step t reads the velocity back iff `t % VideoFreq == 0` or `t % ShearStressFreq == 0`, reads `tau_lb` back iff `t % ShearStressFreq == 0`, and reads nothing else; the velocity is read once per due output (twice when a video frame and a shear sample fall on the same step) and `tau_lb` once per shear sample |
| StepBarriers.OutputReadCounts | sim_main.c:414-430 | the output block reads `u` once for a due video frame and once more for a due shear-stress sample, and `tau_lb` once per shear-stress sample |
| StepBarriers.AssembleReadCount | sim_main.c:326-430 | no phase before the output block reads anything back, so a step's readbacks of each buffer are those of its output block |
| BufferRoles.PingPongByParity | sim_main.c:295-308 | the read and write buffers differ; fA is read and fB written on even steps, the reverse on odd steps; each step reads what the step before wrote |
| BufferRoles.SwitchBindsBuffers | sim_main.c:295-308 | after the switch, collide-stream slot 0 is the read buffer and slot 1 the write buffer, and both boundary kernels' slot 0 is the write buffer |
| BufferRoles.VelocityUsesTable | sim_main.c:350-375 | every velocity launch passes every slot except 3 and 4 as the table in force binds it |
| BufferRoles.StepUsesTable | sim_main.c:326-430 | every launch of a step passes every slot except 3 and 4 as the table in force binds it |
| BufferRoles.ZoneCountResetsLaunchNothing | sim_main.c:399-403 | the zone-count zeroing is host stores only |
| BufferRoles.BoundaryFollowsWriteBuffer | sim_main.c:295-353 | step t opens with collide-stream; every collide-stream launch of the step reads the read buffer and writes the write buffer, and every velocity and periodic launch writes the write buffer |
| BufferRoles.PingPongAcrossSteps | sim_main.c:286-328 | for t > 1, collide-stream at step t reads the buffer it wrote at step t-1, and never writes the buffer it reads |
| RunProperties.RebuildCount | sim_main.c:393-409 | the rebuild launches the zone update once when due, otherwise never |
| RunProperties.StepLaunchCounts | sim_main.c:326-409 | each step launches collide-stream exactly once and the zone update once on a rebuild step, else never |
| RunProperties.StepNeverLaunches | sim_main.c:330-391 | a step never launches particle dynamics or particle-particle forces, nor any particle kernel when there are no particles |
| RunProperties.RunFromCollideCount | sim_main.c:286-328 | iterations 1..n launch collide-stream exactly n times, whatever argument table the loop is entered with |
| RunProperties.RunFromZoneUpdateCount | sim_main.c:286-409 | iterations 1..n launch the zone update once per rebuild step among 1..n |
| RunProperties.RunFromNeverLaunches | sim_main.c:286-432 | iterations 1..n never launch a kernel the configuration never launches |
| RunProperties.RunLaunchCounts | sim_main.c:286-432 | the main loop launches collide-stream `MaxIterations` times (0 if not positive), the zone update once per rebuild step, and never the disabled or absent particle kernels |
| RunProperties.SetupLaunchesNothing | sim_main.c:114-177 | buffer creation and the uploads launch no kernel |
| RunProperties.FinalPhaseLaunchesNothing | sim_main.c:433-460 | the drains and the force map after the loop launch no kernel |
| RunProperties.SimulationLaunchCounts | sim_main.c:39-473 | a whole run performs exactly `MaxIterations` collide-stream launches (none when it is not positive) and never launches a kernel the configuration never launches |
| Simulation.Simulation.constructor | sim_main.c:114-276 | setup leaves the log equal to the buffer creation and uploads, the argument table equal to the fixed bindings, and the work sizes and wall axis as computed |
| Simulation.Simulation.SetTangentialSlab | sim_main.c:359-361 | `tanBC_work_size` becomes 2 on axis i and `LatticeSize-2` on the other two axes |
| Simulation.Simulation.TangentialPassOn | sim_main.c:357-368 | one tangential pass appends exactly its launch, sets `tanAxis`, and leaves the table as on entry with slot 3 of the velocity kernel = i and slot 4 = 0 (hence equal to the wall configuration up to slots 3 and 4) |
| Simulation.Simulation.TangentialPassesOnce | sim_main.c:356-371 | the tangential loop appends the passes of the flagged axes in order; `tanAxis` and `tanBC_work_size` end as the last pass left them, or unchanged when none ran; the table is the entry table with slot 3 = the last flagged axis and slot 4 = 0 (the entry table itself when no axis is flagged), so restoring slots 3 and 4 gives back the entry table |
| Simulation.Simulation.RebuildZones | sim_main.c:396-407 | the rebuild stores zero into every mapped zone count on the host side and appends exactly the rebuild events |
| Simulation.Simulation.SwitchBuffers | sim_main.c:294-308 | the four `clSetKernelArg` calls turn the table entering step t into the table of step t |
| Simulation.Simulation.LaunchHead | sim_main.c:326-348 | appends collide-stream, the reset (with particles, after both finishes), the periodic stream and both finishes |
| Simulation.Simulation.LaunchVelocityBoundary | sim_main.c:350-375 | appends the velocity phase and leaves the argument table as it found it |
| Simulation.Simulation.LaunchCoupling | sim_main.c:377-391 | appends the surface-force launch, a GPU finish and the summation, with particles only |
| Simulation.Simulation.DrainAndRead | sim_main.c:411-430 | appends both finishes and then the readbacks that are due |
| Simulation.Simulation.FluidPhases | sim_main.c:294-375 | the switch, the head and the velocity phase of step t |
| Simulation.Simulation.ParticleAndOutputPhases | sim_main.c:377-430 | the coupling, the rebuild when due (the host stores zeros into the mapped counts; otherwise the host array is unchanged), the drain and the readbacks |
| Simulation.Simulation.Step | sim_main.c:286-432 | one iteration appends exactly `StepTrace(p, t)` and leaves the table of step t |
| Simulation.Simulation.Iterate | sim_main.c:286-432 | takes the state after iterations 1..t-1 to the state after 1..t: the log of iterations 1..t, the table of step t, the host stored only zeros into the zone counts on the last rebuild once some step has rebuilt (else the host array is as before the loop), and `tanAxis`/`tanBC_work_size` as the last tangential pass left them once one has run (else as before the loop) |
| Simulation.Simulation.Run | sim_main.c:286-432 | the loop over t = 1..MaxIterations appends exactly `RunTrace(p, MaxIterations)`, leaves the table of the last step, the host stored only zeros into the zone counts on the last rebuild if some step rebuilt (the host array is untouched otherwise), and `tanAxis`/`tanBC_work_size` as the last tangential pass left them (untouched if none ran) |
| Schedule.RebuildsWithinStep | sim_main.c:286-394 | steps 1..t include a rebuild exactly when steps 1..t-1 do or step t does |
| Simulation.Simulation.Finalize | sim_main.c:433-460 | appends both finishes, the map of the fluid forces (with particles only) and a CPU finish |
| Simulation.SimulationMain | sim_main.c:39-473 | with `paramErrors > 0` the function exits with failure before any buffer is created (empty log); otherwise it returns 0 after producing exactly `SimulationTrace(p)` |

## Left out

- `main` and device setup (sim_main.c:1-37): platform analysis, context and queue creation, and the device self-test are foreign OpenCL calls.
- The functions the source calls but does not define: `initialize_data`, `parameter_checking`, `sphere_discretization`, `create_LB_kernels`, `initialize_lattice_fields`, `initialize_particle_fields`, `initialize_particle_zones`, `create_periodic_stream_mapping`, `continuous_output` and `compute_shear_stress`. They are not part of this model. The parameter-error count and the periodic-node count they produce are inputs.
- Host allocation and initialisation of the arrays (sim_main.c:82-112) are left out. The model keeps only the per-zone counts that the loop zeroes.
- The OpenCL semantics of buffer creation, upload, readback and mapping are left out. So is asynchronous queue execution. Each call is one log event, and buffer sizes and the contents of transfers are not modelled.
- The kernel bodies are not in the source. Launches are opaque named events.
- Simulation.Simulation.RebuildZones / Iterate / Run: `numParInZone` holds only the host's stores through the last mapping. `update_particle_zones` has the device counts bound at slot 8 (sim_main.c:276) and repopulates them after the unmap (sim_main.c:404-407). That repopulation is not modelled, so the all-zero clauses describe the host's stores, not the device counts at the end of a step.
- Error codes are left out. The `err_cl` accumulation and `error_check` calls are not modelled, and every OpenCL call is taken to succeed.
- Console output and the video file handle are left out: `printf`, `fopen`, and the `toPrint` flag. The flag still contributes the precondition that `ConsolePrintFreq` is nonzero.
- The final force summation and its printing (sim_main.c:451-458) are float arithmetic and output. Only the map of the force buffer is modelled.
- The commented-out code never executes, so it never appears in the trace: the split collide-stream dispatch (310-324), the particle-dynamics and particle-particle-force dispatches (332-333, 389-390), and the release calls (463-470).
- Geometry.NumNodes, Geometry.NumParThreads, Geometry.TotalNumZones: the C `int` product is taken exactly before the size_t conversion. Signed overflow is undefined behaviour in C.
- The header's X-macro lists and prototypes carry no logic. `LB_Q` only sizes the distribution buffers (sim_main.c:77), and buffer byte sizes are not modelled.

=== FILE: arg_lemmas.dfy ===
/** Facts about the kernel argument table that the orchestration loop relies
    on: the buffer switch of one step overwrites that of the previous step,
    and the tangential passes leave nothing behind once the wall axis and
    density flag are restored. */
module ArgLemmas {
  import opened Geometry
  import opened Trace
  import opened Schedule

  /** A second write to the same slot hides the first. */
  lemma SetArgTwice(tbl: ArgTable, k: Kernel, slot: nat, v: Value, w: Value)
    ensures SetArg(SetArg(tbl, k, slot, v), k, slot, w) == SetArg(tbl, k, slot, w)
  {
    var m := ArgsOf(tbl, k);
    var once: KernelArgs := m[slot := v];
    assert once[slot := w] == m[slot := w];
  }

  /** Writes to different slots commute. */
  lemma SetArgCommute(tbl: ArgTable, k: Kernel, slot: nat, v: Value, k': Kernel, slot': nat, w: Value)
    requires k != k' || slot != slot'
    ensures SetArg(SetArg(tbl, k, slot, v), k', slot', w) == SetArg(SetArg(tbl, k', slot', w), k, slot, v)
  {
    if k == k' {
      var m := ArgsOf(tbl, k);
      var l: KernelArgs := m[slot := v][slot' := w];
      var r: KernelArgs := m[slot' := w][slot := v];
      assert l == r;
    }
  }

  /** The switch at step t overwrites every slot the switch of an earlier step wrote. */
  lemma SwapOverwritesSwap(tbl: ArgTable, s: int, t: int)
    ensures SwapBuffers(SwapBuffers(tbl, s), t) == SwapBuffers(tbl, t)
  {
    var rs, ws, rt, wt := Mem(ReadBuffer(s)), Mem(WriteBuffer(s)), Mem(ReadBuffer(t)), Mem(WriteBuffer(t));
    var CS, BV, BP := CollideStream, BoundaryVelocity, BoundaryPeriodic;
    // Switch of step s, then the first write of step t.
    var a := SetArg(SetArg(SetArg(tbl, CS, 0, rs), CS, 1, ws), BV, 0, ws);
    SetArgCommute(a, BP, 0, ws, CS, 0, rt);
    var b := SetArg(SetArg(tbl, CS, 0, rs), CS, 1, ws);
    SetArgCommute(b, BV, 0, ws, CS, 0, rt);
    SetArgCommute(SetArg(tbl, CS, 0, rs), CS, 1, ws, CS, 0, rt);
    SetArgTwice(tbl, CS, 0, rs, rt);
    var c := SetArg(tbl, CS, 0, rt);
    assert SetArg(SwapBuffers(tbl, s), CS, 0, rt)
        == SetArg(SetArg(SetArg(c, CS, 1, ws), BV, 0, ws), BP, 0, ws);
    // The second write of step t.
    SetArgCommute(SetArg(SetArg(c, CS, 1, ws), BV, 0, ws), BP, 0, ws, CS, 1, wt);
    SetArgCommute(SetArg(c, CS, 1, ws), BV, 0, ws, CS, 1, wt);
    SetArgTwice(c, CS, 1, ws, wt);
    var d := SetArg(c, CS, 1, wt);
    assert SetArg(SetArg(SwapBuffers(tbl, s), CS, 0, rt), CS, 1, wt)
        == SetArg(SetArg(d, BV, 0, ws), BP, 0, ws);
    // The third and fourth writes of step t.
    SetArgCommute(SetArg(d, BV, 0, ws), BP, 0, ws, BV, 0, wt);
    SetArgTwice(d, BV, 0, ws, wt);
    SetArgTwice(SetArg(d, BV, 0, wt), BP, 0, ws, wt);
  }

  /** From the second iteration on, the table entering step t is the one
      step t - 1 left, and the switch turns it into the table of step t. */
  lemma StepArgsAfterSwitch(p: Params, t: int)
    ensures SwapBuffers(FixedArgs(p), t) == StepArgs(p, t)
    ensures SwapBuffers(StepArgs(p, t - 1), t) == StepArgs(p, t)
  {
    SwapOverwritesSwap(FixedArgs(p), t - 1, t);
  }

  /** Between tangential passes, slots 3 and 4 of the velocity kernel hold the
      wall axis and `calcRho`. */
  lemma StepArgsBindWallAxis(p: Params, t: int)
    ensures 3 in ArgsOf(StepArgs(p, t), BoundaryVelocity)
    ensures ArgsOf(StepArgs(p, t), BoundaryVelocity)[3] == Int(WallAxis(p))
    ensures 4 in ArgsOf(StepArgs(p, t), BoundaryVelocity)
    ensures ArgsOf(StepArgs(p, t), BoundaryVelocity)[4] == Int(CALC_RHO)
  {
  }

  /** Restoring slots that already hold the wall configuration changes nothing. */
  lemma RestoreIsIdentity(a: ArgTable, w: int)
    requires 3 in ArgsOf(a, BoundaryVelocity) && ArgsOf(a, BoundaryVelocity)[3] == Int(w)
    requires 4 in ArgsOf(a, BoundaryVelocity) && ArgsOf(a, BoundaryVelocity)[4] == Int(CALC_RHO)
    ensures RestoreWallArgs(a, w) == a
  {
    var m := ArgsOf(a, BoundaryVelocity);
    assert m[3 := Int(w)][4 := Int(CALC_RHO)] == m;
    assert BoundaryVelocity in a;
    assert a[BoundaryVelocity := m] == a;
  }

  /** A later tangential pass rebinds the same two slots as an earlier one,
      so only the later pass's bindings remain. */
  lemma PassOverwritesPass(tbl: ArgTable, j: int, i: int)
    ensures var BV := BoundaryVelocity;
      SetArg(SetArg(SetArg(SetArg(tbl, BV, 3, Int(j)), BV, 4, Int(TAN_CALC_RHO)), BV, 3, Int(i)), BV, 4, Int(TAN_CALC_RHO))
        == SetArg(SetArg(tbl, BV, 3, Int(i)), BV, 4, Int(TAN_CALC_RHO))
  {
    var m := ArgsOf(tbl, BoundaryVelocity);
    var earlier: KernelArgs := m[3 := Int(j)][4 := Int(TAN_CALC_RHO)];
    assert earlier[3 := Int(i)][4 := Int(TAN_CALC_RHO)] == m[3 := Int(i)][4 := Int(TAN_CALC_RHO)];
  }

  /** A tangential pass rebinds slots 3 and 4 only: the kernel launches with
      the wall-configured arguments except for those two slots, and a later
      restoration undoes it. */
  lemma PassArgsAgree(before: ArgTable, a: ArgTable, w: int, i: int)
    requires RestoreWallArgs(before, w) == a
    ensures var after := SetArg(SetArg(before, BoundaryVelocity, 3, Int(i)), BoundaryVelocity, 4, Int(TAN_CALC_RHO));
      && RestoreWallArgs(after, w) == a
      && ArgsOf(after, BoundaryVelocity) == ArgsOf(a, BoundaryVelocity)[3 := Int(i)][4 := Int(TAN_CALC_RHO)]
  {
    var m := ArgsOf(before, BoundaryVelocity);
    assert ArgsOf(a, BoundaryVelocity) == m[3 := Int(w)][4 := Int(CALC_RHO)];
    var wall: KernelArgs := m[3 := Int(w)][4 := Int(CALC_RHO)];
    var pass: KernelArgs := m[3 := Int(i)][4 := Int(TAN_CALC_RHO)];
    assert wall[3 := Int(i)][4 := Int(TAN_CALC_RHO)] == pass;
    assert pass[3 := Int(w)][4 := Int(CALC_RHO)] == wall;
  }
}

=== FILE: buffer_roles.dfy ===
/** The roles of the two distribution buffers: which one collide-stream
    reads and which one it and the boundary kernels write, step by step. */
module BufferRoles {
  import opened Geometry
  import opened Trace
  import opened Schedule
  import opened TangentialProperties

  /** Slot `slot` of a launch holds what the table holds for its kernel. */
  predicate AgreesAt(launched: KernelArgs, bound: KernelArgs, slot: nat)
  {
    (slot in launched <==> slot in bound) && (slot in bound ==> launched[slot] == bound[slot])
  }

  /** Every launch of the trace passes slot `slot` as table `tbl` binds it. */
  predicate LaunchesUseTable(tr: seq<Event>, tbl: ArgTable, slot: nat)
  {
    forall e | e in tr && e.Enqueue? :: AgreesAt(e.args, ArgsOf(tbl, e.kernel), slot)
  }

  lemma LaunchesUseTableAppend(a: seq<Event>, b: seq<Event>, tbl: ArgTable, slot: nat)
    requires LaunchesUseTable(a, tbl, slot) && LaunchesUseTable(b, tbl, slot)
    ensures LaunchesUseTable(a + b, tbl, slot)
  {
  }

  /** The parity rule of the buffer switch: the two roles always go to
      different buffers, fA is read on even steps and fB on odd ones, and
      each step reads what the step before it wrote. */
  lemma PingPongByParity(t: int)
    ensures ReadBuffer(t) != WriteBuffer(t)
    ensures t % 2 == 0 ==> ReadBuffer(t) == FA && WriteBuffer(t) == FB
    ensures t % 2 != 0 ==> ReadBuffer(t) == FB && WriteBuffer(t) == FA
    ensures ReadBuffer(t + 1) == WriteBuffer(t)
  {
  }

  /** After the switch of step t, collide-stream reads the read buffer and
      writes the write buffer, and both boundary kernels write the write buffer. */
  lemma SwitchBindsBuffers(p: Params, t: int)
    ensures var cs := ArgsOf(StepArgs(p, t), CollideStream);
      0 in cs && cs[0] == Mem(ReadBuffer(t)) && 1 in cs && cs[1] == Mem(WriteBuffer(t))
    ensures var bv := ArgsOf(StepArgs(p, t), BoundaryVelocity);
      0 in bv && bv[0] == Mem(WriteBuffer(t))
    ensures var bp := ArgsOf(StepArgs(p, t), BoundaryPeriodic);
      0 in bp && bp[0] == Mem(WriteBuffer(t))
  {
  }

  /** The velocity phase passes every slot other than the axis and the
      density flag as the table binds it. */
  lemma VelocityUsesTable(p: Params, tbl: ArgTable, slot: nat)
    requires slot != 3 && slot != 4
    ensures LaunchesUseTable(VelocityPhase(p, tbl), tbl, slot)
  {
    if HasVelocityBoundary(p) {
      var a := ArgsOf(tbl, BoundaryVelocity);
      TangentialPassesOnePerFlaggedAxis(p, a, 3);
    }
  }

  /** Every launch of a step passes every slot other than 3 and 4 as the
      table in force binds it: the only rebinding inside a step is that of
      the velocity kernel's axis and density flag around the tangential passes. */
  lemma StepUsesTable(p: Params, t: int, tbl: ArgTable, slot: nat)
    requires FrequenciesUsable(p)
    requires slot != 3 && slot != 4
    ensures LaunchesUseTable(StepTraceWith(p, t, tbl), tbl, slot)
  {
    var c, r, q := CollidePhase(p, tbl), ResetPhase(p, tbl), PeriodicPhase(p, tbl);
    var v, cp, rb, o := VelocityPhase(p, tbl), CouplingPhase(p, tbl), RebuildIfDue(p, t, tbl), OutputPhase(p, t);
    VelocityUsesTable(p, tbl, slot);
    assert LaunchesUseTable(rb, tbl, slot) by {
      if RebuildsAt(p, t) {
        var z := ZoneCountResets(TotalNumZones(p));
        assert LaunchesUseTable(z, tbl, slot) by { ZoneCountResetsLaunchNothing(TotalNumZones(p)); }
      }
    }
    LaunchesUseTableAppend(c, r, tbl, slot);
    LaunchesUseTableAppend(c + r, q, tbl, slot);
    LaunchesUseTableAppend(v, cp, tbl, slot);
    LaunchesUseTableAppend(v + cp, rb, tbl, slot);
    LaunchesUseTableAppend(c + r + q, v + cp + rb, tbl, slot);
    LaunchesUseTableAppend(c + r + q + (v + cp + rb), DRAIN, tbl, slot);
    LaunchesUseTableAppend(c + r + q + (v + cp + rb) + DRAIN, o, tbl, slot);
  }

  /** The zone-count stores launch nothing. */
  lemma {:induction false} ZoneCountResetsLaunchNothing(n: nat)
    ensures forall e | e in ZoneCountResets(n) :: e.HostWrite?
  {
    if n > 0 {
      ZoneCountResetsLaunchNothing(n - 1);
    }
  }

  /** Step t opens with collide-stream reading the read buffer of step t
      and writing its write buffer; every collide-stream launch of the step
      does the same, and every boundary launch writes the write buffer. */
  lemma BoundaryFollowsWriteBuffer(p: Params, t: int)
    requires FrequenciesUsable(p)
    ensures StepTrace(p, t)[0] == Enqueue(CollideStream, GPU, Grid(LATTICE_OFFSET, InteriorSize(p)),
                                          ArgsOf(StepArgs(p, t), CollideStream))
    ensures forall e | e in StepTrace(p, t) && IsEnqueueOf(e, CollideStream) ::
      && 0 in e.args && e.args[0] == Mem(ReadBuffer(t))
      && 1 in e.args && e.args[1] == Mem(WriteBuffer(t))
    ensures forall e | e in StepTrace(p, t) && (IsEnqueueOf(e, BoundaryVelocity) || IsEnqueueOf(e, BoundaryPeriodic)) ::
      0 in e.args && e.args[0] == Mem(WriteBuffer(t))
  {
    SwitchBindsBuffers(p, t);
    StepUsesTable(p, t, StepArgs(p, t), 0);
    StepUsesTable(p, t, StepArgs(p, t), 1);
  }

  /** From the second step on, collide-stream reads the buffer the previous
      step's collide-stream wrote, and never writes the buffer it reads. */
  lemma PingPongAcrossSteps(p: Params, t: int)
    requires FrequenciesUsable(p)
    requires t > 1
    ensures 0 in StepTrace(p, t)[0].args && 1 in StepTrace(p, t)[0].args
    ensures 1 in StepTrace(p, t - 1)[0].args
    ensures StepTrace(p, t)[0].args[0] == StepTrace(p, t - 1)[0].args[1]
    ensures StepTrace(p, t)[0].args[0] != StepTrace(p, t)[0].args[1]
  {
    BoundaryFollowsWriteBuffer(p, t);
    BoundaryFollowsWriteBuffer(p, t - 1);
    SwitchBindsBuffers(p, t);
    SwitchBindsBuffers(p, t - 1);
    PingPongByParity(t - 1);
    PingPongByParity(t);
  }
}

=== FILE: geometry.dfy ===
/** Launch geometry of the host orchestration loop: the configuration the
    loop reads, the size_t conversions the host code performs, and the
    work sizes and offsets handed to the kernel launches. */
module Geometry {

  /** size_t is 64 bits wide on the hosts this code targets. */
  const SIZE_T_MODULUS: int := 0x1_0000_0000_0000_0000

  /** Largest fluid launch the split collide-stream dispatch was sized for
      (256*128*128 work items). */
  const MAX_KERNEL_SIZE: nat := 256 * 128 * 128

  /** Surface-point count used to size the force buffers when there are no particles. */
  const DEFAULT_SURF_POINTS: nat := 32

  /** The value of `BoundaryConds[d]` that the dispatch code treats as a
      prescribed-velocity axis (the literal `== 1` test of the source). */
  const VELOCITY_AXIS_FLAG: int := 1

  /** The value of `TangentialVelBC[d]` that requests a tangential pass. */
  const TANGENTIAL_FLAG: int := 1

  /** A C array of three ints, one per lattice axis. */
  type Axes = s: seq<int> | |s| == 3 witness [0, 0, 0]

  /** The configuration the orchestration loop consumes: the integer
      parameter block, the host-only parameters, and the entry count of the
      periodic stream map built before the loop. */
  datatype Params = Params(
    latticeSize: Axes,
    boundaryConds: Axes,
    tangentialVelBC: Axes,
    numZones: Axes,
    domainDecomp: Axes,
    numParticles: int,
    totalSurfPoints: int,
    pointsPerWorkGroup: int,
    maxIterations: int,
    numPeriodicNodes: int,
    rebuildFreq: int,
    videoFreq: int,
    shearStressFreq: int,
    consolePrintFreq: int)

  /** The loop body evaluates `t % f` for these frequencies; the rebuild
      frequency only when particles are present, because of the short-circuit
      `usingParticles && t % RebuildFreq == 0`. */
  predicate FrequenciesUsable(p: Params)
  {
    && p.consolePrintFreq != 0
    && p.videoFreq != 0
    && p.shearStressFreq != 0
    && (p.numParticles > 0 ==> p.rebuildFreq != 0)
  }

  /** Conversion of a C integer to size_t. */
  function SizeT(x: int): (r: nat)
    ensures r < SIZE_T_MODULUS
    ensures 0 <= x < SIZE_T_MODULUS ==> r == x
    ensures x < 0 && -SIZE_T_MODULUS <= x ==> r == x + SIZE_T_MODULUS
  {
    x % SIZE_T_MODULUS
  }

  predicate UsingParticles(p: Params)
  {
    p.numParticles > 0
  }

  /** `numNodes`: every node of the lattice, halo included. */
  function NumNodes(p: Params): nat
  {
    SizeT(p.latticeSize[0] * p.latticeSize[1] * p.latticeSize[2])
  }

  /** `splitKernelSize`: the number of pieces the fluid launch would be split into. */
  function SplitKernelSize(numNodes: nat): nat
    requires numNodes < SIZE_T_MODULUS
  {
    1 + SizeT(numNodes - 1) / MAX_KERNEL_SIZE
  }

  /** `numParThreads`: CPU worker groups of the particle kernels. */
  function NumParThreads(p: Params): nat
  {
    SizeT(p.domainDecomp[0] * p.domainDecomp[1] * p.domainDecomp[2])
  }

  /** `totalNumZones`: zones of the particle neighbour index. */
  function TotalNumZones(p: Params): nat
  {
    SizeT(p.numZones[0] * p.numZones[1] * p.numZones[2])
  }

  /** `numSurfPoints`: the global size of the particle-fluid force launch. */
  function NumSurfPoints(p: Params): nat
  {
    if p.numParticles > 0 then SizeT(p.totalSurfPoints) else DEFAULT_SURF_POINTS
  }

  /** `pointWorkSize`: the work-group size of the particle-fluid force launch. */
  function PointWorkSize(p: Params): nat
  {
    SizeT(p.pointsPerWorkGroup)
  }

  /** `periodic_work_size`: one work item per periodic stream-map entry. */
  function PeriodicWorkSize(p: Params): nat
  {
    SizeT(p.numPeriodicNodes)
  }

  /** `lattice_work_offset`: launches over the interior skip the one-node halo. */
  const LATTICE_OFFSET: seq<nat> := [1, 1, 1]

  /** Interior extent of axis d: the lattice size less the halo on both sides. */
  function InteriorExtent(p: Params, d: nat): nat
    requires d < 3
  {
    SizeT(p.latticeSize[d] - 2)
  }

  /** `global_work_size`: the interior index space. */
  function InteriorSize(p: Params): seq<nat>
  {
    [InteriorExtent(p, 0), InteriorExtent(p, 1), InteriorExtent(p, 2)]
  }

  /** Extent of the velocity-boundary launch along axis d. */
  function SlabExtent(p: Params, d: nat): nat
    requires d < 3
  {
    if p.boundaryConds[d] == VELOCITY_AXIS_FLAG then 2 else InteriorExtent(p, d)
  }

  /** `velBC_work_size`: two nodes thick across each velocity axis. */
  function VelocitySlab(p: Params): seq<nat>
  {
    [SlabExtent(p, 0), SlabExtent(p, 1), SlabExtent(p, 2)]
  }

  /** `velBoundary`: some axis is flagged as a velocity axis. */
  predicate HasVelocityBoundary(p: Params)
  {
    exists d :: 0 <= d < 3 && p.boundaryConds[d] == VELOCITY_AXIS_FLAG
  }

  /** `wallAxis`: the last velocity axis, or 0 when there is none. */
  function WallAxis(p: Params): (r: nat)
    ensures r < 3
    ensures HasVelocityBoundary(p) ==>
      p.boundaryConds[r] == VELOCITY_AXIS_FLAG &&
      forall d :: r < d < 3 ==> p.boundaryConds[d] != VELOCITY_AXIS_FLAG
    ensures !HasVelocityBoundary(p) ==> r == 0
  {
    if p.boundaryConds[2] == VELOCITY_AXIS_FLAG then 2
    else if p.boundaryConds[1] == VELOCITY_AXIS_FLAG then 1
    else 0
  }

  /** `tanBC_work_size` of the tangential pass on axis i. */
  function TangentialSlab(p: Params, i: nat): seq<nat>
    requires i < 3
  {
    [if i == 0 then 2 else InteriorExtent(p, 0),
     if i == 1 then 2 else InteriorExtent(p, 1),
     if i == 2 then 2 else InteriorExtent(p, 2)]
  }

  /** The per-axis loop that fills `global_work_size` and `velBC_work_size`
      and picks `wallAxis` and `velBoundary`. */
  method ComputeWorkSizes(p: Params)
    returns (globalWork: seq<nat>, velBCWork: seq<nat>, wallAxis: nat, velBoundary: bool)
    ensures |globalWork| == 3 && |velBCWork| == 3
    ensures forall d :: 0 <= d < 3 ==> globalWork[d] == SizeT(p.latticeSize[d] - 2)
    ensures forall d :: 0 <= d < 3 && p.boundaryConds[d] == VELOCITY_AXIS_FLAG ==> velBCWork[d] == 2
    ensures forall d :: 0 <= d < 3 && p.boundaryConds[d] != VELOCITY_AXIS_FLAG ==>
      velBCWork[d] == SizeT(p.latticeSize[d] - 2)
    ensures velBoundary <==> exists d :: 0 <= d < 3 && p.boundaryConds[d] == VELOCITY_AXIS_FLAG
    ensures velBoundary ==>
      && wallAxis < 3 && p.boundaryConds[wallAxis] == VELOCITY_AXIS_FLAG
      && forall d :: wallAxis < d < 3 ==> p.boundaryConds[d] != VELOCITY_AXIS_FLAG
    ensures !velBoundary ==> wallAxis == 0
    ensures globalWork == InteriorSize(p) && velBCWork == VelocitySlab(p)
    ensures wallAxis == WallAxis(p) && velBoundary == HasVelocityBoundary(p)
  {
    var global := new nat[3];
    var velBC := new nat[3];
    wallAxis, velBoundary := 0, false;
    for dim := 0 to 3
      invariant forall d :: 0 <= d < dim ==> global[d] == InteriorExtent(p, d)
      invariant forall d :: 0 <= d < dim ==> velBC[d] == SlabExtent(p, d)
      invariant velBoundary <==> exists d :: 0 <= d < dim && p.boundaryConds[d] == VELOCITY_AXIS_FLAG
      invariant velBoundary ==>
        && wallAxis < dim && p.boundaryConds[wallAxis] == VELOCITY_AXIS_FLAG
        && forall d :: wallAxis < d < dim ==> p.boundaryConds[d] != VELOCITY_AXIS_FLAG
      invariant !velBoundary ==> wallAxis == 0
    {
      global[dim] := SizeT(p.latticeSize[dim] - 2);
      if p.boundaryConds[dim] == VELOCITY_AXIS_FLAG {
        velBC[dim] := 2;
        wallAxis := dim;
        velBoundary := true;
      } else {
        velBC[dim] := SizeT(p.latticeSize[dim] - 2);
      }
    }
    globalWork, velBCWork := global[..], velBC[..];
  }

  /** For a non-empty lattice the split count is the ceiling of
      numNodes / MAX_KERNEL_SIZE. */
  lemma {:induction false} SplitKernelSizeIsCeiling(numNodes: nat)
    requires 1 <= numNodes < SIZE_T_MODULUS
    ensures (SplitKernelSize(numNodes) - 1) * MAX_KERNEL_SIZE < numNodes
    ensures numNodes <= SplitKernelSize(numNodes) * MAX_KERNEL_SIZE
  {
    var q := (numNodes - 1) / MAX_KERNEL_SIZE;
    var m := (numNodes - 1) % MAX_KERNEL_SIZE;
    assert numNodes - 1 == q * MAX_KERNEL_SIZE + m;
    assert SplitKernelSize(numNodes) == q + 1;
  }

  /** The split count of the lattice the host code sizes: the ceiling of
      the node count over MAX_KERNEL_SIZE when the node count is
      representable and positive, 2^42 when the lattice is empty. */
  lemma SplitKernelSizeOfLattice(p: Params)
    ensures var nodes := p.latticeSize[0] * p.latticeSize[1] * p.latticeSize[2];
      1 <= nodes < SIZE_T_MODULUS ==>
        && (SplitKernelSize(NumNodes(p)) - 1) * MAX_KERNEL_SIZE < nodes
        && nodes <= SplitKernelSize(NumNodes(p)) * MAX_KERNEL_SIZE
    ensures p.latticeSize[0] * p.latticeSize[1] * p.latticeSize[2] == 0 ==>
      SplitKernelSize(NumNodes(p)) == 0x400_0000_0000
  {
    var nodes := p.latticeSize[0] * p.latticeSize[1] * p.latticeSize[2];
    if 1 <= nodes < SIZE_T_MODULUS {
      assert NumNodes(p) == nodes;
      SplitKernelSizeIsCeiling(nodes);
    } else if nodes == 0 {
      assert NumNodes(p) == 0;
      SplitKernelSizeOfEmptyLattice();
    }
  }

  /** For an empty lattice `numNodes - 1` wraps around in size_t and the
      split count becomes 2^42 instead of 0. */
  lemma SplitKernelSizeOfEmptyLattice()
    ensures SplitKernelSize(0) == 0x400_0000_0000
  {
  }
}

=== FILE: run_props.dfy ===
/** Properties of the whole main loop: how many times the fluid and zone
    kernels run, and which kernels the run can launch at all. */
module RunProperties {
  import opened Geometry
  import opened Trace
  import opened Schedule
  import opened StepProperties
  import opened StepBarriers

  /** The number of enqueues of kernel K in a trace. */
  function LaunchCount(tr: seq<Event>, K: Kernel): nat
  {
    if tr == [] then 0
    else (if IsEnqueueOf(tr[0], K) then 1 else 0) + LaunchCount(tr[1..], K)
  }

  lemma {:induction false} LaunchCountAppend(a: seq<Event>, b: seq<Event>, K: Kernel)
    ensures LaunchCount(a + b, K) == LaunchCount(a, K) + LaunchCount(b, K)
    decreases |a|
  {
    if a == [] {
      assert a + b == b;
    } else {
      assert (a + b)[1..] == a[1..] + b;
      LaunchCountAppend(a[1..], b, K);
    }
  }

  /** A trace that never enqueues K counts no launch of it. */
  lemma {:induction false} AvoidsCountsNone(tr: seq<Event>, K: Kernel)
    requires Avoids(tr, K)
    ensures LaunchCount(tr, K) == 0
    decreases |tr|
  {
    if tr != [] {
      assert tr[0] in tr;
      assert forall e | e in tr[1..] :: e in tr;
      AvoidsCountsNone(tr[1..], K);
    }
  }

  /** Launch counts of a step add up over its phases. */
  lemma CountOverPhases(c: seq<Event>, r: seq<Event>, q: seq<Event>, v: seq<Event>,
                        cp: seq<Event>, rb: seq<Event>, o: seq<Event>, K: Kernel)
    ensures LaunchCount(Assemble(c, r, q, v, cp, rb, o), K)
      == LaunchCount(c, K) + LaunchCount(r, K) + LaunchCount(q, K) + LaunchCount(v, K)
       + LaunchCount(cp, K) + LaunchCount(rb, K) + LaunchCount(DRAIN, K) + LaunchCount(o, K)
  {
    LaunchCountAppend(c, r, K);
    LaunchCountAppend(c + r, q, K);
    LaunchCountAppend(v, cp, K);
    LaunchCountAppend(v + cp, rb, K);
    LaunchCountAppend(c + r + q, v + cp + rb, K);
    LaunchCountAppend(c + r + q + (v + cp + rb), DRAIN, K);
    LaunchCountAppend(c + r + q + (v + cp + rb) + DRAIN, o, K);
  }

  /** The rebuild launches the zone update once when it is due, else not at all. */
  lemma RebuildCount(p: Params, t: int, tbl: ArgTable)
    requires FrequenciesUsable(p)
    ensures LaunchCount(RebuildIfDue(p, t, tbl), UpdateParticleZones) == if RebuildsAt(p, t) then 1 else 0
  {
    if RebuildsAt(p, t) {
      var z := ZoneCountResets(TotalNumZones(p));
      var m := [Map(CPU, NumParInZone)];
      var tail := [Unmap(CPU, NumParInZone),
        Enqueue(UpdateParticleZones, CPU, Linear(NumParThreads(p)), ArgsOf(tbl, UpdateParticleZones)),
        Finish(CPU)];
      ZoneCountResetsZeroEachZone(TotalNumZones(p));
      assert Avoids(z, UpdateParticleZones) by {
        forall e | e in z ensures !IsEnqueueOf(e, UpdateParticleZones) {
          var i :| 0 <= i < |z| && z[i] == e;
        }
      }
      AvoidsCountsNone(z, UpdateParticleZones);
      LaunchCountAppend(m, z, UpdateParticleZones);
      LaunchCountAppend(m + z, tail, UpdateParticleZones);
      assert tail == [tail[0], tail[1]] + [tail[2]];
      assert [tail[0], tail[1]] == [tail[0]] + [tail[1]];
      LaunchCountAppend([tail[0], tail[1]], [tail[2]], UpdateParticleZones);
      LaunchCountAppend([tail[0]], [tail[1]], UpdateParticleZones);
    }
  }

  /** Collide-stream runs once in a step of the right shape, and the zone
      update as often as the rebuild launches it. */
  lemma CountsFromShapes(c: seq<Event>, r: seq<Event>, q: seq<Event>, v: seq<Event>,
                         cp: seq<Event>, rb: seq<Event>, o: seq<Event>, particles: bool)
    requires PhaseShapes(c, r, q, v, cp, rb, o, particles)
    ensures LaunchCount(Assemble(c, r, q, v, cp, rb, o), CollideStream) == 1
    ensures LaunchCount(Assemble(c, r, q, v, cp, rb, o), UpdateParticleZones) == LaunchCount(rb, UpdateParticleZones)
  {
    var CS, UPZ := CollideStream, UpdateParticleZones;
    PhaseShapeAvoids(c, r, q, v, cp, rb, o, particles);
    CountOverPhases(c, r, q, v, cp, rb, o, CS);
    assert LaunchCount(c, CS) == 1 by {
      assert c[1..] == [];
    }
    AvoidsCountsNone(r, CS);
    AvoidsCountsNone(q, CS);
    AvoidsCountsNone(v, CS);
    AvoidsCountsNone(cp, CS);
    AvoidsCountsNone(rb, CS);
    AvoidsCountsNone(DRAIN, CS);
    AvoidsCountsNone(o, CS);
    CountOverPhases(c, r, q, v, cp, rb, o, UPZ);
    AvoidsCountsNone(c, UPZ);
    AvoidsCountsNone(r, UPZ);
    AvoidsCountsNone(q, UPZ);
    AvoidsCountsNone(v, UPZ);
    AvoidsCountsNone(cp, UPZ);
    AvoidsCountsNone(DRAIN, UPZ);
    AvoidsCountsNone(o, UPZ);
  }

  /** The kernels a run of configuration p never launches: the particle
      dynamics and particle-particle force kernels (their dispatches are
      disabled), and every particle kernel when there are no particles. */
  predicate NeverLaunched(p: Params, K: Kernel)
  {
    || K == ParticleDynamics || K == ParticleParticleForces
    || (!UsingParticles(p) &&
        K in {ResetParticleFluidForces, ParticleFluidForcesLinearStencil, SumParticleFluidForces,
              UpdateParticleZones})
  }

  /** Each step launches collide-stream exactly once, the zone update
      exactly once on a rebuild step and never otherwise, and no kernel the
      configuration never launches. */
  lemma StepLaunchCounts(p: Params, t: int, tbl: ArgTable)
    requires FrequenciesUsable(p)
    ensures LaunchCount(StepTraceWith(p, t, tbl), CollideStream) == 1
    ensures LaunchCount(StepTraceWith(p, t, tbl), UpdateParticleZones) == if RebuildsAt(p, t) then 1 else 0
  {
    var c, r, q := CollidePhase(p, tbl), ResetPhase(p, tbl), PeriodicPhase(p, tbl);
    var v, cp, rb, o := VelocityPhase(p, tbl), CouplingPhase(p, tbl), RebuildIfDue(p, t, tbl), OutputPhase(p, t);
    StepPhaseShapes(p, t, tbl);
    assert StepTraceWith(p, t, tbl) == Assemble(c, r, q, v, cp, rb, o);
    CountsFromShapes(c, r, q, v, cp, rb, o, UsingParticles(p));
    RebuildCount(p, t, tbl);
  }

  /** A trace whose kernel set leaves out K never enqueues K. */
  lemma AbsentKernelAvoided(tr: seq<Event>, K: Kernel)
    requires K !in EnqueuedKernels(tr)
    ensures Avoids(tr, K)
  {
    forall e | e in tr ensures !IsEnqueueOf(e, K) {
      if e.Enqueue? {
        assert e.kernel in EnqueuedKernels(tr);
      }
    }
  }

  /** A kernel outside the particle kernels, or any particle kernel when
      there are no particles, is not in a step's kernel set. */
  lemma AbsentFromStepKernels(S: set<Kernel>, vel: bool, particles: bool, rebuild: bool, K: Kernel)
    requires S == {CollideStream, BoundaryPeriodic}
       + (if vel then {BoundaryVelocity} else {})
       + (if particles
          then {ResetParticleFluidForces, ParticleFluidForcesLinearStencil, SumParticleFluidForces}
          else {})
       + (if rebuild then {UpdateParticleZones} else {})
    requires rebuild ==> particles
    requires || K == ParticleDynamics || K == ParticleParticleForces
             || (!particles && K in {ResetParticleFluidForces, ParticleFluidForcesLinearStencil,
                                     SumParticleFluidForces, UpdateParticleZones})
    ensures K !in S
  {
  }

  /** A step launches no kernel the configuration never launches. */
  lemma StepNeverLaunches(p: Params, t: int, tbl: ArgTable, K: Kernel)
    requires FrequenciesUsable(p)
    requires NeverLaunched(p, K)
    ensures LaunchCount(StepTraceWith(p, t, tbl), K) == 0
  {
    var tr := StepTraceWith(p, t, tbl);
    StepKernels(p, t, tbl);
    AbsentFromStepKernels(EnqueuedKernels(tr), HasVelocityBoundary(p), UsingParticles(p), RebuildsAt(p, t), K);
    AbsentKernelAvoided(tr, K);
    AvoidsCountsNone(tr, K);
  }

  /** The number of steps in 1..n that rebuild the zone index. */
  function RebuildSteps(p: Params, n: int): nat
    requires n >= 1 ==> FrequenciesUsable(p)
    decreases n
  {
    if n <= 0 then 0 else RebuildSteps(p, n - 1) + (if RebuildsAt(p, n) then 1 else 0)
  }

  /** Iterations 1..n, whatever table the loop is entered with, launch
      collide-stream once per iteration. */
  lemma {:induction false} RunFromCollideCount(p: Params, n: int, entry: ArgTable)
    requires n >= 1 ==> FrequenciesUsable(p)
    ensures LaunchCount(RunTraceFrom(p, n, entry), CollideStream) == if n <= 0 then 0 else n
    decreases n
  {
    if n > 0 {
      var prev, step := RunTraceFrom(p, n - 1, entry), StepTraceWith(p, n, SwapBuffers(entry, n));
      RunFromCollideCount(p, n - 1, entry);
      assert LaunchCount(step, CollideStream) == 1 by {
        StepLaunchCounts(p, n, SwapBuffers(entry, n));
      }
      LaunchCountAppend(prev, step, CollideStream);
    }
  }

  /** Iterations 1..n launch the zone update once per rebuild step. */
  lemma {:induction false} RunFromZoneUpdateCount(p: Params, n: int, entry: ArgTable)
    requires n >= 1 ==> FrequenciesUsable(p)
    ensures LaunchCount(RunTraceFrom(p, n, entry), UpdateParticleZones) == RebuildSteps(p, n)
    decreases n
  {
    if n > 0 {
      RunFromZoneUpdateCount(p, n - 1, entry);
      LaunchCountAppend(RunTraceFrom(p, n - 1, entry), StepTraceWith(p, n, SwapBuffers(entry, n)), UpdateParticleZones);
      StepLaunchCounts(p, n, SwapBuffers(entry, n));
    }
  }

  /** Iterations 1..n never launch a kernel the configuration never launches. */
  lemma {:induction false} RunFromNeverLaunches(p: Params, n: int, entry: ArgTable, K: Kernel)
    requires n >= 1 ==> FrequenciesUsable(p)
    requires NeverLaunched(p, K)
    ensures LaunchCount(RunTraceFrom(p, n, entry), K) == 0
    decreases n
  {
    if n > 0 {
      RunFromNeverLaunches(p, n - 1, entry, K);
      LaunchCountAppend(RunTraceFrom(p, n - 1, entry), StepTraceWith(p, n, SwapBuffers(entry, n)), K);
      StepNeverLaunches(p, n, SwapBuffers(entry, n), K);
    }
  }

  /** The main loop runs collide-stream once per iteration, the zone update
      once per rebuild step, and never a kernel the configuration never launches. */
  lemma RunLaunchCounts(p: Params, n: int, K: Kernel)
    requires n >= 1 ==> FrequenciesUsable(p)
    ensures LaunchCount(RunTrace(p, n), CollideStream) == if n <= 0 then 0 else n
    ensures LaunchCount(RunTrace(p, n), UpdateParticleZones) == RebuildSteps(p, n)
    ensures NeverLaunched(p, K) ==> LaunchCount(RunTrace(p, n), K) == 0
  {
    RunFromCollideCount(p, n, FixedArgs(p));
    RunFromZoneUpdateCount(p, n, FixedArgs(p));
    if NeverLaunched(p, K) {
      RunFromNeverLaunches(p, n, FixedArgs(p), K);
    }
  }

  /** Buffer creation and the uploads launch no kernel. */
  lemma SetupLaunchesNothing(K: Kernel)
    ensures Avoids(SETUP, K)
  {
    assert forall e | e in SETUP :: e.Create? || e.Write?;
  }

  /** The phase after the loop launches no kernel. */
  lemma FinalPhaseLaunchesNothing(p: Params, K: Kernel)
    ensures Avoids(FinalPhase(p), K)
  {
    assert forall e | e in FinalPhase(p) :: e.Finish? || e.Map?;
  }

  /** A run of a configuration that passed parameter checking performs
      exactly MaxIterations fluid steps (none when MaxIterations is not
      positive), and never launches a kernel the configuration never launches. */
  lemma SimulationLaunchCounts(p: Params, K: Kernel)
    requires p.maxIterations >= 1 ==> FrequenciesUsable(p)
    ensures LaunchCount(SimulationTrace(p), CollideStream)
      == if p.maxIterations <= 0 then 0 else p.maxIterations
    ensures NeverLaunched(p, K) ==> LaunchCount(SimulationTrace(p), K) == 0
  {
    var run := RunTrace(p, p.maxIterations);
    SetupLaunchesNothing(CollideStream);
    SetupLaunchesNothing(K);
    FinalPhaseLaunchesNothing(p, CollideStream);
    FinalPhaseLaunchesNothing(p, K);
    AvoidsCountsNone(SETUP, CollideStream);
    AvoidsCountsNone(FinalPhase(p), CollideStream);
    AvoidsCountsNone(SETUP, K);
    AvoidsCountsNone(FinalPhase(p), K);
    RunLaunchCounts(p, p.maxIterations, K);
    LaunchCountAppend(SETUP, run, CollideStream);
    LaunchCountAppend(SETUP + run, FinalPhase(p), CollideStream);
    LaunchCountAppend(SETUP, run, K);
    LaunchCountAppend(SETUP + run, FinalPhase(p), K);
  }
}

=== FILE: schedule.dfy ===
/** The specification of what `simulation_main` asks of OpenCL: the fixed
    argument bindings, the buffer-role switch, and the trace of one time
    step, of the whole loop and of the whole run. The class in module
    Simulation is proved to produce exactly these traces. */
module Schedule {
  import opened Geometry
  import opened Trace

  /** `calcRho` of the primary velocity pass: the pass also computes density. */
  const CALC_RHO: int := 1

  /** `tanCalcRho` of the tangential passes: they do not. */
  const TAN_CALC_RHO: int := 0

  /** The distribution buffer collide-stream reads at step t. */
  function ReadBuffer(t: int): Buffer
  {
    if t % 2 == 0 then FA else FB
  }

  /** The distribution buffer collide-stream and the boundary kernels write at step t. */
  function WriteBuffer(t: int): Buffer
  {
    if t % 2 == 0 then FB else FA
  }

  /** The argument table after the fixed bindings made once before the loop. */
  function FixedArgs(p: Params): ArgTable
  {
    map[
      CollideStream := map[
        2 := Mem(Gpf), 3 := Mem(U), 4 := Mem(TauLb), 5 := Mem(CountPoint),
        6 := Mem(IntDat), 7 := Mem(FlpDat)],
      BoundaryVelocity := map[
        1 := Mem(IntDat), 2 := Mem(FlpDat), 3 := Int(WallAxis(p)), 4 := Int(CALC_RHO)],
      BoundaryPeriodic := map[1 := Mem(IntDat), 2 := Mem(StrMap)],
      ParticleFluidForcesLinearStencil := map[
        0 := Mem(IntDat), 1 := Mem(FlpDat), 2 := Mem(Gpf), 3 := Mem(U), 4 := Mem(ParKin),
        5 := Mem(ParFluidForce), 6 := Mem(ParFluidForceSum), 7 := Mem(SpherePoints),
        8 := Mem(CountPoint)],
      SumParticleFluidForces := map[0 := Mem(IntDat), 1 := Mem(FlpDat), 2 := Mem(Gpf)],
      ResetParticleFluidForces := map[0 := Mem(IntDat), 1 := Mem(FlpDat), 2 := Mem(Gpf)],
      ParticleParticleForces := map[
        0 := Mem(IntDat), 1 := Mem(FlpDat), 2 := Mem(ParKin), 3 := Mem(ParForce),
        4 := Mem(ZoneDat), 5 := Mem(ParsZone), 6 := Mem(ThreadMembers),
        7 := Mem(NumParInThread), 8 := Mem(ZoneMembers), 9 := Mem(NumParInZone)],
      ParticleDynamics := map[
        0 := Mem(IntDat), 1 := Mem(FlpDat), 2 := Mem(ParKin), 3 := Mem(ParForce),
        4 := Mem(ParFluidForce), 5 := Mem(ZoneDat), 6 := Mem(ParsZone),
        7 := Mem(ThreadMembers), 8 := Mem(NumParInThread)],
      UpdateParticleZones := map[
        0 := Mem(IntDat), 1 := Mem(FlpDat), 2 := Mem(ParKin), 3 := Mem(ZoneDat),
        4 := Mem(ThreadMembers), 5 := Mem(NumParInThread), 6 := Mem(ParsZone),
        7 := Mem(ZoneMembers), 8 := Mem(NumParInZone)]
    ]
  }

  /** The buffer-role switch at the head of step t: four `clSetKernelArg` calls. */
  function SwapBuffers(tbl: ArgTable, t: int): ArgTable
  {
    var r0 := SetArg(tbl, CollideStream, 0, Mem(ReadBuffer(t)));
    var r1 := SetArg(r0, CollideStream, 1, Mem(WriteBuffer(t)));
    var r2 := SetArg(r1, BoundaryVelocity, 0, Mem(WriteBuffer(t)));
    SetArg(r2, BoundaryPeriodic, 0, Mem(WriteBuffer(t)))
  }

  /** The argument table in force from the switch of step t to the end of
      step t (outside the tangential passes). */
  function StepArgs(p: Params, t: int): ArgTable
  {
    SwapBuffers(FixedArgs(p), t)
  }

  /** The argument table the host holds when iteration t begins: the fixed
      bindings before the first iteration, afterwards what iteration t - 1 left. */
  function ArgsEntering(p: Params, t: int): ArgTable
  {
    if t <= 1 then FixedArgs(p) else StepArgs(p, t - 1)
  }

  /** A 3D launch over the interior with the halo offset, with the
      arguments kernel k has in table `tbl`. */
  function InteriorLaunch(p: Params, tbl: ArgTable, k: Kernel): Event
  {
    Enqueue(k, GPU, Grid(LATTICE_OFFSET, InteriorSize(p)), ArgsOf(tbl, k))
  }

  function CollidePhase(p: Params, tbl: ArgTable): seq<Event>
  {
    [InteriorLaunch(p, tbl, CollideStream)]
  }

  /** Drain both queues, then clear the particle-fluid force field. */
  function ResetPhase(p: Params, tbl: ArgTable): seq<Event>
  {
    if UsingParticles(p) then
      [Finish(CPU), Finish(GPU), InteriorLaunch(p, tbl, ResetParticleFluidForces)]
    else []
  }

  /** The periodic stream over the stream-map entries, then a drain of both queues. */
  function PeriodicPhase(p: Params, tbl: ArgTable): seq<Event>
  {
    [Enqueue(BoundaryPeriodic, GPU, Linear(PeriodicWorkSize(p)), ArgsOf(tbl, BoundaryPeriodic)),
     Finish(GPU), Finish(CPU)]
  }

  /** The tangential pass on axis i, launched with the velocity kernel's
      arguments `a` except slot 3 (axis) and slot 4 (density flag). */
  function TangentialPass(p: Params, a: KernelArgs, i: nat): Event
    requires i < 3
  {
    Enqueue(BoundaryVelocity, GPU, Grid(LATTICE_OFFSET, TangentialSlab(p, i)),
            a[3 := Int(i)][4 := Int(TAN_CALC_RHO)])
  }

  /** The tangential passes over the axes below n, in axis order. */
  function TangentialPasses(p: Params, a: KernelArgs, n: nat): seq<Event>
    requires n <= 3
  {
    if n == 0 then []
    else TangentialPasses(p, a, n - 1) +
         (if p.tangentialVelBC[n - 1] == TANGENTIAL_FLAG then [TangentialPass(p, a, n - 1)] else [])
  }

  /** The axis of the last tangential pass over the axes below n, which is
      the last flagged axis below n; -1 when no axis below n is flagged. */
  function LastTangentialAxis(p: Params, n: nat): (r: int)
    requires n <= 3
    ensures -1 <= r < n
    ensures r >= 0 ==> p.tangentialVelBC[r] == TANGENTIAL_FLAG
    ensures r >= 0 ==> forall d :: r < d < n ==> p.tangentialVelBC[d] != TANGENTIAL_FLAG
    ensures r < 0 <==> forall d :: 0 <= d < n ==> p.tangentialVelBC[d] != TANGENTIAL_FLAG
  {
    if n == 0 then -1
    else if p.tangentialVelBC[n - 1] == TANGENTIAL_FLAG then n - 1
    else LastTangentialAxis(p, n - 1)
  }

  /** The two `clSetKernelArg` calls after the tangential passes: slot 3 of
      the velocity kernel back to the wall axis, slot 4 back to `calcRho`. */
  function RestoreWallArgs(tbl: ArgTable, wallAxis: int): ArgTable
  {
    SetArg(SetArg(tbl, BoundaryVelocity, 3, Int(wallAxis)), BoundaryVelocity, 4, Int(CALC_RHO))
  }

  /** The primary velocity pass, the tangential passes, then a GPU drain. */
  function VelocityPhase(p: Params, tbl: ArgTable): seq<Event>
  {
    if HasVelocityBoundary(p) then
      var a := ArgsOf(tbl, BoundaryVelocity);
      [Enqueue(BoundaryVelocity, GPU, Grid(LATTICE_OFFSET, VelocitySlab(p)), a)]
      + TangentialPasses(p, a, 3)
      + [Finish(GPU)]
    else []
  }

  /** Surface-point forces, a GPU drain, then their summation onto the nodes. */
  function CouplingPhase(p: Params, tbl: ArgTable): seq<Event>
  {
    if UsingParticles(p) then
      [Enqueue(ParticleFluidForcesLinearStencil, GPU, Tiled(NumSurfPoints(p), PointWorkSize(p)),
               ArgsOf(tbl, ParticleFluidForcesLinearStencil)),
       Finish(GPU),
       InteriorLaunch(p, tbl, SumParticleFluidForces)]
    else []
  }

  /** Whether step t rebuilds the zone index. */
  predicate RebuildsAt(p: Params, t: int)
    requires FrequenciesUsable(p)
  {
    UsingParticles(p) && t % p.rebuildFreq == 0
  }

  /** Whether some step among 1..n rebuilds the zone index. */
  predicate RebuildsWithin(p: Params, n: int)
    requires n >= 1 ==> FrequenciesUsable(p)
  {
    exists s :: 1 <= s <= n && RebuildsAt(p, s)
  }

  /** Steps 1..t include a rebuild exactly when steps 1..t-1 do or step t does. */
  lemma RebuildsWithinStep(p: Params, t: int)
    requires t >= 1 && FrequenciesUsable(p)
    ensures RebuildsWithin(p, t) <==> RebuildsWithin(p, t - 1) || RebuildsAt(p, t)
  {
    if RebuildsWithin(p, t) && !RebuildsAt(p, t) {
      var s :| 1 <= s <= t && RebuildsAt(p, s);
      assert s <= t - 1;
    }
  }

  /** The host stores that zero the first n mapped per-zone counts, in index order. */
  function ZoneCountResets(n: nat): seq<Event>
  {
    if n == 0 then [] else ZoneCountResets(n - 1) + [HostWrite(NumParInZone, n - 1, 0)]
  }

  /** Map the counts, zero them, unmap, update the zones, drain the CPU queue. */
  function RebuildPhase(p: Params, tbl: ArgTable): seq<Event>
  {
    [Map(CPU, NumParInZone)]
    + ZoneCountResets(TotalNumZones(p))
    + [Unmap(CPU, NumParInZone),
       Enqueue(UpdateParticleZones, CPU, Linear(NumParThreads(p)), ArgsOf(tbl, UpdateParticleZones)),
       Finish(CPU)]
  }

  /** The rebuild when step t is due for one. */
  function RebuildIfDue(p: Params, t: int, tbl: ArgTable): seq<Event>
    requires FrequenciesUsable(p)
  {
    if RebuildsAt(p, t) then RebuildPhase(p, tbl) else []
  }

  const DRAIN: seq<Event> := [Finish(GPU), Finish(CPU)]

  /** The readbacks of step t: velocity for video output, velocity and
      relaxation time for shear-stress output. */
  function OutputPhase(p: Params, t: int): seq<Event>
    requires FrequenciesUsable(p)
  {
    (if t % p.videoFreq == 0 then [Read(GPU, U)] else [])
    + (if t % p.shearStressFreq == 0 then [Read(GPU, U), Read(GPU, TauLb)] else [])
  }

  /** The first part of a step, up to and including the drain after the periodic stream. */
  function StepHead(p: Params, tbl: ArgTable): seq<Event>
  {
    CollidePhase(p, tbl) + ResetPhase(p, tbl) + PeriodicPhase(p, tbl)
  }

  /** The dispatches of step t after the drain that follows the periodic stream. */
  function StepBody(p: Params, t: int, tbl: ArgTable): seq<Event>
    requires FrequenciesUsable(p)
  {
    VelocityPhase(p, tbl) + CouplingPhase(p, tbl) + RebuildIfDue(p, t, tbl)
  }

  /** Loop iteration t run with the argument table `tbl` in force. */
  function StepTraceWith(p: Params, t: int, tbl: ArgTable): seq<Event>
    requires FrequenciesUsable(p)
  {
    StepHead(p, tbl) + StepBody(p, t, tbl) + DRAIN + OutputPhase(p, t)
  }

  /** Everything the host asks of OpenCL in loop iteration t. */
  function StepTrace(p: Params, t: int): seq<Event>
    requires FrequenciesUsable(p)
  {
    StepTraceWith(p, t, StepArgs(p, t))
  }

  /** Iterations 1..n of the main loop entered with argument table `entry`:
      iteration t runs with `entry` switched for step t. */
  function RunTraceFrom(p: Params, n: int, entry: ArgTable): seq<Event>
    requires n >= 1 ==> FrequenciesUsable(p)
    decreases n
  {
    if n <= 0 then [] else RunTraceFrom(p, n - 1, entry) + StepTraceWith(p, n, SwapBuffers(entry, n))
  }

  /** Iterations 1..n of the main loop, entered with the fixed bindings. */
  function RunTrace(p: Params, n: int): seq<Event>
    requires n >= 1 ==> FrequenciesUsable(p)
  {
    RunTraceFrom(p, n, FixedArgs(p))
  }

  /** Buffer creation in the order of the source, then the blocking uploads. */
  const SETUP: seq<Event> := [
    Create(FA, ReadWrite), Create(FB, ReadWrite), Create(U, ReadWrite), Create(Gpf, ReadWrite),
    Create(CountPoint, ReadWrite), Create(TauLb, ReadWrite),
    Create(ParKin, ReadWrite), Create(ParForce, ReadWrite), Create(ParFluidForce, ReadWrite),
    Create(ParsZone, ReadWrite), Create(ZoneMembers, ReadWrite), Create(NumParInZone, ReadWrite),
    Create(ParFluidForceSum, ReadWrite),
    Create(ThreadMembers, ReadOnly), Create(NumParInThread, ReadOnly), Create(ZoneDat, ReadOnly),
    Create(IntDat, ReadOnly), Create(FlpDat, ReadOnly), Create(StrMap, ReadOnly),
    Create(SpherePoints, ReadOnly),
    Write(GPU, FA), Write(GPU, FB), Write(GPU, U), Write(GPU, Gpf), Write(GPU, CountPoint),
    Write(GPU, TauLb), Write(GPU, ParFluidForceSum), Write(GPU, SpherePoints), Write(GPU, StrMap),
    Write(GPU, IntDat), Write(GPU, FlpDat)]

  /** After the loop: drain both queues, map the particle fluid forces when
      there are particles, drain the CPU queue. */
  function FinalPhase(p: Params): seq<Event>
  {
    DRAIN + (if UsingParticles(p) then [Map(CPU, ParFluidForce)] else []) + [Finish(CPU)]
  }

  /** The whole run of a configuration that passed parameter checking. */
  function SimulationTrace(p: Params): seq<Event>
    requires p.maxIterations >= 1 ==> FrequenciesUsable(p)
  {
    SETUP + RunTrace(p, p.maxIterations) + FinalPhase(p)
  }
}

=== FILE: simulation.dfy ===
/** `simulation_main`: the host-side orchestration of the lattice-Boltzmann
    run. The object holds the state the host code mutates (the kernel
    argument table, the host's stores into the mapped per-zone counts, the tangential work size and
    axis) and the log of its OpenCL calls. */
module Simulation {
  import opened Geometry
  import opened Trace
  import opened Schedule
  import opened ArgLemmas

  /** How `simulation_main` ends: `exit(EXIT_FAILURE)` or a returned code. */
  datatype Status = ExitFailure | Returned(code: int)

  class Simulation {
    const p: Params
    /** `numParInZone_h`: what the host last stored into the per-zone
        counts through its mapping. The zone-update kernel's later writes
        to the device buffer are not part of this state. */
    const numParInZone: array<nat>
    /** `tanBC_work_size`, reused by every tangential pass. */
    const tanWork: array<nat>
    const globalWork: seq<nat>
    const velBCWork: seq<nat>
    const wallAxis: nat
    const velBoundary: bool
    var tanAxis: int
    var args: ArgTable
    var log: seq<Event>

    ghost predicate Valid()
    {
      && numParInZone.Length == TotalNumZones(p)
      && tanWork.Length == 3
      && numParInZone != tanWork
      && globalWork == InteriorSize(p)
      && velBCWork == VelocitySlab(p)
      && wallAxis == WallAxis(p)
      && velBoundary == HasVelocityBoundary(p)
    }

    /** Everything before the main loop: buffer creation and upload, the
        work sizes, and the fixed kernel arguments. */
    constructor (p: Params)
      ensures Valid() && this.p == p
      ensures fresh(numParInZone) && fresh(tanWork)
      ensures log == SETUP && args == FixedArgs(p)
      ensures tanAxis == 0
    {
      this.p := p;
      numParInZone := new nat[TotalNumZones(p)];
      tanWork := new nat[3];
      log := SETUP;
      var global, velBC, wall, hasVel := ComputeWorkSizes(p);
      globalWork, velBCWork, wallAxis, velBoundary := global, velBC, wall, hasVel;
      tanAxis := 0;
      // The bindings of the fixed kernel arguments, written as the table they produce.
      args := FixedArgs(p);
    }

    /** `tanBC_work_size` for the pass on axis i: two nodes across axis i,
        the interior along the other two. */
    method SetTangentialSlab(i: nat)
      requires Valid() && i < 3
      modifies tanWork
      ensures tanWork[..] == TangentialSlab(p, i)
    {
      ghost var j, k := (i + 1) % 3, (i + 2) % 3;
      assert j != i && k != i && j != k && j < 3 && k < 3 && i + j + k == 3;
      tanWork[i] := 2;
      tanWork[(i + 1) % 3] := SizeT(p.latticeSize[(i + 1) % 3] - 2);
      tanWork[(i + 2) % 3] := SizeT(p.latticeSize[(i + 2) % 3] - 2);
      assert tanWork[..] == TangentialSlab(p, i);
    }

    /** One tangential pass on axis i: its slab, its axis and density flag
        bound to slots 3 and 4, then its launch. */
    method TangentialPassOn(i: nat, ghost a: ArgTable)
      requires Valid() && i < 3 && RestoreWallArgs(args, wallAxis) == a
      modifies this`args, this`log, this`tanAxis, tanWork
      ensures log == old(log) + [TangentialPass(p, ArgsOf(a, BoundaryVelocity), i)]
      ensures args == SetArg(SetArg(old(args), BoundaryVelocity, 3, Int(i)), BoundaryVelocity, 4, Int(TAN_CALC_RHO))
      ensures RestoreWallArgs(args, wallAxis) == a
      ensures tanAxis == i && tanWork[..] == TangentialSlab(p, i)
    {
      SetTangentialSlab(i);
      tanAxis := i;
      ghost var before := args;
      args := SetArg(args, BoundaryVelocity, 3, Int(tanAxis));
      args := SetArg(args, BoundaryVelocity, 4, Int(TAN_CALC_RHO));
      PassArgsAgree(before, a, wallAxis, i);
      log := log + [Enqueue(BoundaryVelocity, GPU, Grid(LATTICE_OFFSET, tanWork[..]), ArgsOf(args, BoundaryVelocity))];
    }

    /** The experimental tangential velocity passes: one launch of the
        velocity kernel per flagged axis, in axis order. */
    method TangentialPassesOnce(ghost a: ArgTable)
      requires Valid() && args == a
      requires 3 in ArgsOf(a, BoundaryVelocity) && ArgsOf(a, BoundaryVelocity)[3] == Int(wallAxis)
      requires 4 in ArgsOf(a, BoundaryVelocity) && ArgsOf(a, BoundaryVelocity)[4] == Int(CALC_RHO)
      modifies this`args, this`log, this`tanAxis, tanWork
      ensures Valid()
      ensures log == old(log) + TangentialPasses(p, ArgsOf(a, BoundaryVelocity), 3)
      ensures RestoreWallArgs(args, wallAxis) == a
      ensures LastTangentialAxis(p, 3) >= 0 ==> args == SetArg(SetArg(a, BoundaryVelocity, 3,
        Int(LastTangentialAxis(p, 3))), BoundaryVelocity, 4, Int(TAN_CALC_RHO))
      ensures LastTangentialAxis(p, 3) < 0 ==> args == a
      ensures LastTangentialAxis(p, 3) >= 0 ==>
        tanAxis == LastTangentialAxis(p, 3) && tanWork[..] == TangentialSlab(p, LastTangentialAxis(p, 3))
      ensures LastTangentialAxis(p, 3) < 0 ==>
        tanAxis == old(tanAxis) && tanWork[..] == old(tanWork[..])
    {
      RestoreIsIdentity(a, wallAxis);
      ghost var bv := ArgsOf(a, BoundaryVelocity);
      for i := 0 to 3
        invariant Valid()
        invariant log == old(log) + TangentialPasses(p, bv, i)
        invariant RestoreWallArgs(args, wallAxis) == a
        invariant LastTangentialAxis(p, i) >= 0 ==> args == SetArg(SetArg(a, BoundaryVelocity, 3,
          Int(LastTangentialAxis(p, i))), BoundaryVelocity, 4, Int(TAN_CALC_RHO))
        invariant LastTangentialAxis(p, i) < 0 ==> args == a
        invariant LastTangentialAxis(p, i) >= 0 ==>
          tanAxis == LastTangentialAxis(p, i) && tanWork[..] == TangentialSlab(p, LastTangentialAxis(p, i))
        invariant LastTangentialAxis(p, i) < 0 ==>
          tanAxis == old(tanAxis) && tanWork[..] == old(tanWork[..])
      {
        if p.tangentialVelBC[i] == TANGENTIAL_FLAG {
          ghost var last := LastTangentialAxis(p, i);
          TangentialPassOn(i, a);
          if last >= 0 {
            PassOverwritesPass(a, last, i);
          }
          AppendAssoc(old(log), TangentialPasses(p, bv, i), [TangentialPass(p, bv, i)]);
        }
      }
    }

    /** The zone rebuild: map the per-zone counts, zero them in place,
        unmap, launch the zone update on the CPU queue and wait for it.
        The array keeps the host's zero stores; the counts the update
        kernel writes back are not modelled. */
    method RebuildZones()
      requires Valid()
      modifies this`log, numParInZone
      ensures log == old(log) + RebuildPhase(p, args)
      ensures forall i :: 0 <= i < numParInZone.Length ==> numParInZone[i] == 0
    {
      log := log + [Map(CPU, NumParInZone)];
      var i := 0;
      while i < numParInZone.Length
        invariant 0 <= i <= numParInZone.Length
        invariant forall j :: 0 <= j < i ==> numParInZone[j] == 0
        invariant log == old(log) + [Map(CPU, NumParInZone)] + ZoneCountResets(i)
      {
        numParInZone[i] := 0;
        log := log + [HostWrite(NumParInZone, i, 0)];
        i := i + 1;
      }
      log := log + [Unmap(CPU, NumParInZone)];
      log := log + [Enqueue(UpdateParticleZones, CPU, Linear(NumParThreads(p)), ArgsOf(args, UpdateParticleZones))];
      log := log + [Finish(CPU)];
    }

    /** The buffer switch at the head of step t. */
    method SwitchBuffers(t: int)
      requires args == ArgsEntering(p, t)
      modifies this`args
      ensures args == StepArgs(p, t)
    {
      StepArgsAfterSwitch(p, t);
      ghost var a0 := args;
      assert a0 == FixedArgs(p) || a0 == StepArgs(p, t - 1);
      if t % 2 == 0 {
        args := SetArg(args, CollideStream, 0, Mem(FA));
        args := SetArg(args, CollideStream, 1, Mem(FB));
        args := SetArg(args, BoundaryVelocity, 0, Mem(FB));
        args := SetArg(args, BoundaryPeriodic, 0, Mem(FB));
      } else {
        args := SetArg(args, CollideStream, 0, Mem(FB));
        args := SetArg(args, CollideStream, 1, Mem(FA));
        args := SetArg(args, BoundaryVelocity, 0, Mem(FA));
        args := SetArg(args, BoundaryPeriodic, 0, Mem(FA));
      }
      assert args == SwapBuffers(a0, t);
    }

    /** Collide-stream, the force reset when there are particles, the
        periodic stream and the drain after it. */
    method LaunchHead()
      requires globalWork == InteriorSize(p)
      modifies this`log
      ensures log == old(log) + StepHead(p, args)
    {
      log := log + [Enqueue(CollideStream, GPU, Grid(LATTICE_OFFSET, globalWork), ArgsOf(args, CollideStream))];
      if p.numParticles > 0 {
        log := log + [Finish(CPU)];
        log := log + [Finish(GPU)];
        log := log + [Enqueue(ResetParticleFluidForces, GPU, Grid(LATTICE_OFFSET, globalWork),
                              ArgsOf(args, ResetParticleFluidForces))];
      }
      log := log + [Enqueue(BoundaryPeriodic, GPU, Linear(PeriodicWorkSize(p)), ArgsOf(args, BoundaryPeriodic))];
      log := log + [Finish(GPU)];
      log := log + [Finish(CPU)];
    }

    /** The velocity boundary: the primary pass, the tangential passes, the
        restoration of the wall axis and density flag, and a GPU drain. */
    method LaunchVelocityBoundary()
      requires Valid()
      requires 3 in ArgsOf(args, BoundaryVelocity) && ArgsOf(args, BoundaryVelocity)[3] == Int(wallAxis)
      requires 4 in ArgsOf(args, BoundaryVelocity) && ArgsOf(args, BoundaryVelocity)[4] == Int(CALC_RHO)
      modifies this`args, this`log, this`tanAxis, tanWork
      ensures args == old(args)
      ensures log == old(log) + VelocityPhase(p, args)
      ensures HasVelocityBoundary(p) && LastTangentialAxis(p, 3) >= 0 ==>
        tanAxis == LastTangentialAxis(p, 3) && tanWork[..] == TangentialSlab(p, LastTangentialAxis(p, 3))
      ensures !HasVelocityBoundary(p) || LastTangentialAxis(p, 3) < 0 ==>
        tanAxis == old(tanAxis) && tanWork[..] == old(tanWork[..])
    {
      if velBoundary {
        var a := ArgsOf(args, BoundaryVelocity);
        log := log + [Enqueue(BoundaryVelocity, GPU, Grid(LATTICE_OFFSET, velBCWork), a)];
        TangentialPassesOnce(args);
        args := SetArg(args, BoundaryVelocity, 3, Int(wallAxis));
        args := SetArg(args, BoundaryVelocity, 4, Int(CALC_RHO));
        log := log + [Finish(GPU)];
        AppendAssoc(old(log), [Enqueue(BoundaryVelocity, GPU, Grid(LATTICE_OFFSET, velBCWork), a)],
                    TangentialPasses(p, a, 3));
      }
    }

    /** The particle-fluid coupling: surface forces, a GPU drain, and their
        summation onto the lattice. */
    method LaunchCoupling()
      requires globalWork == InteriorSize(p)
      modifies this`log
      ensures log == old(log) + CouplingPhase(p, args)
    {
      if p.numParticles > 0 {
        log := log + [Enqueue(ParticleFluidForcesLinearStencil, GPU, Tiled(NumSurfPoints(p), PointWorkSize(p)),
                              ArgsOf(args, ParticleFluidForcesLinearStencil))];
        log := log + [Finish(GPU)];
        log := log + [Enqueue(SumParticleFluidForces, GPU, Grid(LATTICE_OFFSET, globalWork),
                              ArgsOf(args, SumParticleFluidForces))];
      }
    }

    /** The drain at the end of the step and the readbacks for output. */
    method DrainAndRead(t: int)
      requires FrequenciesUsable(p)
      modifies this`log
      ensures log == old(log) + DRAIN + OutputPhase(p, t)
    {
      log := log + [Finish(GPU)];
      log := log + [Finish(CPU)];
      if t % p.videoFreq == 0 {
        log := log + [Read(GPU, U)];
      }
      if t % p.shearStressFreq == 0 {
        log := log + [Read(GPU, U)];
        log := log + [Read(GPU, TauLb)];
      }
      AppendAssoc(old(log), DRAIN, OutputPhase(p, t));
    }

    /** The part of step t that runs the lattice kernels: the buffer
        switch, collide-stream, the periodic and the velocity boundaries. */
    method FluidPhases(t: int)
      requires Valid() && t >= 1
      requires args == ArgsEntering(p, t)
      modifies this`args, this`log, this`tanAxis, tanWork
      ensures Valid()
      ensures args == StepArgs(p, t)
      ensures log == old(log) + StepHead(p, args) + VelocityPhase(p, args)
      ensures HasVelocityBoundary(p) && LastTangentialAxis(p, 3) >= 0 ==>
        tanAxis == LastTangentialAxis(p, 3) && tanWork[..] == TangentialSlab(p, LastTangentialAxis(p, 3))
      ensures !HasVelocityBoundary(p) || LastTangentialAxis(p, 3) < 0 ==>
        tanAxis == old(tanAxis) && tanWork[..] == old(tanWork[..])
    {
      SwitchBuffers(t);
      LaunchHead();
      StepArgsBindWallAxis(p, t);
      LaunchVelocityBoundary();
    }

    /** The rest of step t: the particle coupling, the zone rebuild when it
        is due, the drain and the readbacks. */
    method ParticleAndOutputPhases(t: int)
      requires Valid() && FrequenciesUsable(p)
      modifies this`log, numParInZone
      ensures log == old(log) + CouplingPhase(p, args) + RebuildIfDue(p, t, args) + DRAIN + OutputPhase(p, t)
      ensures RebuildsAt(p, t) ==> forall i :: 0 <= i < numParInZone.Length ==> numParInZone[i] == 0
      ensures !RebuildsAt(p, t) ==> numParInZone[..] == old(numParInZone[..])
    {
      LaunchCoupling();
      if p.numParticles > 0 && t % p.rebuildFreq == 0 {
        RebuildZones();
      }
      DrainAndRead(t);
    }

    /** One iteration of the main loop. */
    method Step(t: int)
      requires Valid() && FrequenciesUsable(p) && t >= 1
      requires args == ArgsEntering(p, t)
      modifies this`args, this`log, this`tanAxis, tanWork, numParInZone
      ensures Valid()
      ensures args == StepArgs(p, t)
      ensures log == old(log) + StepTrace(p, t)
      ensures RebuildsAt(p, t) ==> forall i :: 0 <= i < numParInZone.Length ==> numParInZone[i] == 0
      ensures !RebuildsAt(p, t) ==> numParInZone[..] == old(numParInZone[..])
      ensures HasVelocityBoundary(p) && LastTangentialAxis(p, 3) >= 0 ==>
        tanAxis == LastTangentialAxis(p, 3) && tanWork[..] == TangentialSlab(p, LastTangentialAxis(p, 3))
      ensures !HasVelocityBoundary(p) || LastTangentialAxis(p, 3) < 0 ==>
        tanAxis == old(tanAxis) && tanWork[..] == old(tanWork[..])
    {
      FluidPhases(t);
      ParticleAndOutputPhases(t);
      RegroupStep(old(log), StepHead(p, args), VelocityPhase(p, args), CouplingPhase(p, args),
                  RebuildIfDue(p, t, args), DRAIN, OutputPhase(p, t));
    }

    /** The host's stores into the zone counts after steps 1..n: only
        zeros once some step has rebuilt the zone index (the last mapping
        stored zeros), otherwise still `counts0`. */
    ghost predicate CountsAfter(n: int, counts0: seq<nat>)
      requires n >= 1 ==> FrequenciesUsable(p)
      reads this, numParInZone
    {
      && (RebuildsWithin(p, n) ==> forall i :: 0 <= i < numParInZone.Length ==> numParInZone[i] == 0)
      && (!RebuildsWithin(p, n) ==> numParInZone[..] == counts0)
    }

    /** `tanAxis` and `tanBC_work_size` after steps 1..n: as the last
        tangential pass left them once a step has run one, otherwise still
        `axis0` and `work0`. */
    ghost predicate TangentialAfter(n: int, axis0: int, work0: seq<nat>)
      reads this, tanWork
    {
      if n >= 1 && HasVelocityBoundary(p) && LastTangentialAxis(p, 3) >= 0
      then tanAxis == LastTangentialAxis(p, 3) && tanWork[..] == TangentialSlab(p, LastTangentialAxis(p, 3))
      else tanAxis == axis0 && tanWork[..] == work0
    }

    /** Iteration t of the main loop extends the state left by iterations
        1..t-1 to the state left by iterations 1..t. */
    method Iterate(t: int, ghost l: seq<Event>, ghost counts0: seq<nat>, ghost axis0: int, ghost work0: seq<nat>)
      requires Valid() && FrequenciesUsable(p) && t >= 1
      requires args == ArgsEntering(p, t)
      requires log == l + RunTrace(p, t - 1)
      requires CountsAfter(t - 1, counts0) && TangentialAfter(t - 1, axis0, work0)
      modifies this`args, this`log, this`tanAxis, tanWork, numParInZone
      ensures Valid()
      ensures args == StepArgs(p, t)
      ensures log == l + RunTrace(p, t)
      ensures CountsAfter(t, counts0) && TangentialAfter(t, axis0, work0)
    {
      Step(t);
      RunTraceExtends(l, p, t);
      RebuildsWithinStep(p, t);
    }

    /** The main loop, t = 1..MaxIterations: it appends the trace of every
        iteration, leaves the argument table of the last step, the host's
        stores into the zone counts all zero if some step rebuilt (untouched
        otherwise), and the
        tangential work size and axis as the last pass left them (untouched
        if no pass ran). */
    method Run()
      requires Valid() && args == FixedArgs(p)
      requires p.maxIterations >= 1 ==> FrequenciesUsable(p)
      modifies this`args, this`log, this`tanAxis, tanWork, numParInZone
      ensures Valid()
      ensures log == old(log) + RunTrace(p, p.maxIterations)
      ensures args == if p.maxIterations >= 1 then StepArgs(p, p.maxIterations) else FixedArgs(p)
      ensures CountsAfter(p.maxIterations, old(numParInZone[..]))
      ensures TangentialAfter(p.maxIterations, old(tanAxis), old(tanWork[..]))
    {
      if p.maxIterations < 1 {
        assert RunTrace(p, p.maxIterations) == [];
        assert !RebuildsWithin(p, p.maxIterations);
        return;
      }
      var t := 1;
      while t <= p.maxIterations
        invariant 1 <= t <= p.maxIterations + 1
        invariant Valid()
        invariant log == old(log) + RunTrace(p, t - 1)
        invariant args == ArgsEntering(p, t)
        invariant CountsAfter(t - 1, old(numParInZone[..]))
        invariant TangentialAfter(t - 1, old(tanAxis), old(tanWork[..]))
      {
        Iterate(t, old(log), old(numParInZone[..]), old(tanAxis), old(tanWork[..]));
        t := t + 1;
      }
    }

    /** After the loop: drain both queues, map the particle fluid forces
        for the final summation, drain the CPU queue. */
    method Finalize()
      modifies this`log
      ensures log == old(log) + FinalPhase(p)
    {
      log := log + [Finish(GPU)];
      log := log + [Finish(CPU)];
      if p.numParticles > 0 {
        log := log + [Map(CPU, ParFluidForce)];
      }
      log := log + [Finish(CPU)];
    }
  }

  /** The log after iteration t of the main loop. */
  lemma RunTraceExtends(l: seq<Event>, p: Params, t: int)
    requires t >= 1 && FrequenciesUsable(p)
    ensures l + RunTrace(p, t - 1) + StepTrace(p, t) == l + RunTrace(p, t)
  {
    AppendAssoc(l, RunTrace(p, t - 1), StepTrace(p, t));
  }

  /** Regrouping the seven pieces of a step's log. */
  lemma RegroupStep(l: seq<Event>, h: seq<Event>, v: seq<Event>, c: seq<Event>, r: seq<Event>,
                    d: seq<Event>, o: seq<Event>)
    ensures l + h + v + c + r + d + o == l + (h + (v + c + r) + d + o)
  {
    AppendAssoc(l + h, v, c);
    AppendAssoc(l + h, v + c, r);
    AppendAssoc(l, h, v + c + r);
    AppendAssoc(l, h + (v + c + r), d);
    AppendAssoc(l, h + (v + c + r) + d, o);
  }

  /** `simulation_main`: exit before touching any device resource when
      parameter checking reported errors, otherwise set up, run the loop and
      finish. */
  method SimulationMain(p: Params, paramErrors: int) returns (status: Status, trace: seq<Event>)
    requires paramErrors <= 0 && p.maxIterations >= 1 ==> FrequenciesUsable(p)
    ensures paramErrors > 0 ==> status == ExitFailure && trace == []
    ensures paramErrors <= 0 ==> status == Returned(0) && trace == SimulationTrace(p)
  {
    if paramErrors > 0 {
      return ExitFailure, [];
    }
    var sim := new Simulation(p);
    sim.Run();
    sim.Finalize();
    return Returned(0), sim.log;
  }
}

=== FILE: step_barriers.dfy ===
/** Where the queue barriers and the readbacks of one iteration of the main
    loop sit. The positional facts are proved once over any trace assembled
    from phases of the right shape, then instantiated for the step. */
module StepBarriers {
  import opened Geometry
  import opened Trace
  import opened Schedule
  import opened TangentialProperties
  import opened StepProperties

  /** The trace reads nothing back to the host. */
  predicate NoReadback(tr: seq<Event>)
  {
    forall e | e in tr :: !e.Read?
  }

  /** The trace of a step put together from its phases: collide-stream,
      force reset, periodic stream, velocity passes, particle coupling, zone
      rebuild, the drain, and the readbacks. */
  function Assemble(c: seq<Event>, r: seq<Event>, q: seq<Event>, v: seq<Event>,
                    cp: seq<Event>, rb: seq<Event>, o: seq<Event>): seq<Event>
  {
    c + r + q + (v + cp + rb) + DRAIN + o
  }

  /** No element of the trace is an enqueue of K. */
  predicate Avoids(tr: seq<Event>, K: Kernel)
  {
    forall e | e in tr :: !IsEnqueueOf(e, K)
  }

  /** Every enqueue in the trace is an enqueue of K. */
  predicate OnlyLaunches(tr: seq<Event>, K: Kernel)
  {
    forall e | e in tr && e.Enqueue? :: e.kernel == K
  }

  /** Both queues were drained between every earlier launch and each
      reset of the particle-fluid forces. */
  predicate ResetAfterDrainIn(tr: seq<Event>)
  {
    forall k :: 0 <= k < |tr| && IsEnqueueOf(tr[k], ResetParticleFluidForces) ==> DrainedBefore(tr, k)
  }

  /** Every periodic stream precedes every velocity launch, with both
      queues drained in between. */
  predicate PeriodicDrainedBeforeVelocityIn(tr: seq<Event>)
  {
    forall j, k :: 0 <= j < |tr| && 0 <= k < |tr|
      && IsEnqueueOf(tr[j], BoundaryPeriodic) && IsEnqueueOf(tr[k], BoundaryVelocity)
      ==> j < k && DrainedBetween(tr, j, k)
  }

  /** Every surface-point force launch precedes every summation launch,
      with the GPU queue drained in between. */
  predicate StencilDrainedBeforeSumIn(tr: seq<Event>)
  {
    forall j, k :: 0 <= j < |tr| && 0 <= k < |tr|
      && IsEnqueueOf(tr[j], ParticleFluidForcesLinearStencil) && IsEnqueueOf(tr[k], SumParticleFluidForces)
      ==> j < k && exists m :: j < m < k && tr[m] == Finish(GPU)
  }

  /** Both queues were drained between every launch and each readback. */
  predicate ReadbacksDrainedIn(tr: seq<Event>)
  {
    forall k :: 0 <= k < |tr| && tr[k].Read? ==> DrainedBefore(tr, k)
  }

  /** What the barrier facts need to know about each phase of a step. */
  predicate PhaseShapes(c: seq<Event>, r: seq<Event>, q: seq<Event>, v: seq<Event>,
                        cp: seq<Event>, rb: seq<Event>, o: seq<Event>, particles: bool)
  {
    && |c| == 1 && IsEnqueueOf(c[0], CollideStream)
    && (if particles
        then |r| == 3 && r[0] == Finish(CPU) && r[1] == Finish(GPU)
             && IsEnqueueOf(r[2], ResetParticleFluidForces)
        else r == [])
    && |q| == 3 && IsEnqueueOf(q[0], BoundaryPeriodic) && q[1] == Finish(GPU) && q[2] == Finish(CPU)
    && OnlyLaunches(v, BoundaryVelocity) && NoReadback(v)
    && (if particles
        then |cp| == 3 && IsEnqueueOf(cp[0], ParticleFluidForcesLinearStencil)
             && cp[1] == Finish(GPU) && IsEnqueueOf(cp[2], SumParticleFluidForces)
        else cp == [])
    && OnlyLaunches(rb, UpdateParticleZones) && NoReadback(rb)
    && forall e | e in o :: e.Read?
  }

  /** Where position k of a + m + b falls. */
  lemma IndexInto(a: seq<Event>, m: seq<Event>, b: seq<Event>, k: int)
    requires 0 <= k < |a + m + b|
    ensures k < |a| ==> (a + m + b)[k] in a
    ensures |a| <= k < |a| + |m| ==> (a + m + b)[k] == m[k - |a|]
    ensures |a| + |m| <= k ==> (a + m + b)[k] in b
  {
    if k < |a| {
      assert (a + m + b)[k] == a[k];
    } else if |a| + |m| <= k {
      assert (a + m + b)[k] == b[k - |a| - |m|];
    }
  }

  /** An enqueue of a kernel that neither a nor b enqueues lies in m. */
  lemma EnqueueWithin(a: seq<Event>, m: seq<Event>, b: seq<Event>, K: Kernel, k: int)
    requires Avoids(a, K) && Avoids(b, K)
    requires 0 <= k < |a + m + b| && IsEnqueueOf((a + m + b)[k], K)
    ensures |a| <= k < |a| + |m| && (a + m + b)[k] == m[k - |a|]
  {
    IndexInto(a, m, b, k);
  }

  /** A trace that avoids K has no enqueue of K at any position. */
  lemma NoEnqueueAt(tr: seq<Event>, K: Kernel)
    requires Avoids(tr, K)
    ensures forall k :: 0 <= k < |tr| ==> !IsEnqueueOf(tr[k], K)
  {
    forall k | 0 <= k < |tr| ensures !IsEnqueueOf(tr[k], K) {
      assert tr[k] in tr;
    }
  }

  /** Which phases avoid which kernels, from their shapes. */
  lemma PhaseShapeAvoids(c: seq<Event>, r: seq<Event>, q: seq<Event>, v: seq<Event>,
                         cp: seq<Event>, rb: seq<Event>, o: seq<Event>, particles: bool)
    requires PhaseShapes(c, r, q, v, cp, rb, o, particles)
    ensures forall K :: K != CollideStream ==> Avoids(c, K)
    ensures forall K :: K != ResetParticleFluidForces ==> Avoids(r, K)
    ensures !particles ==> Avoids(r, ResetParticleFluidForces)
    ensures forall K :: K != BoundaryPeriodic ==> Avoids(q, K)
    ensures forall K :: K != BoundaryVelocity ==> Avoids(v, K)
    ensures forall K :: K != ParticleFluidForcesLinearStencil && K != SumParticleFluidForces ==> Avoids(cp, K)
    ensures !particles ==> Avoids(cp, ParticleFluidForcesLinearStencil)
    ensures forall K :: K != UpdateParticleZones ==> Avoids(rb, K)
    ensures forall K :: Avoids(DRAIN, K) && Avoids(o, K)
    ensures NoReadback(c) && NoReadback(r) && NoReadback(q) && NoReadback(cp)
  {
    assert c == [c[0]];
    assert q == [q[0], q[1], q[2]];
    if particles {
      assert r == [r[0], r[1], r[2]];
      assert cp == [cp[0], cp[1], cp[2]];
    }
  }

  lemma AvoidsAppend(a: seq<Event>, b: seq<Event>, K: Kernel)
    requires Avoids(a, K) && Avoids(b, K)
    ensures Avoids(a + b, K)
  {
  }

  lemma NoReadbackAppend(a: seq<Event>, b: seq<Event>)
    requires NoReadback(a) && NoReadback(b)
    ensures NoReadback(a + b)
  {
  }

  /** The number of readbacks of buffer b in a trace. */
  function ReadCount(tr: seq<Event>, b: Buffer): nat
  {
    if tr == [] then 0
    else (if tr[0].Read? && tr[0].buf == b then 1 else 0) + ReadCount(tr[1..], b)
  }

  lemma {:induction false} ReadCountAppend(a: seq<Event>, b: seq<Event>, buf: Buffer)
    ensures ReadCount(a + b, buf) == ReadCount(a, buf) + ReadCount(b, buf)
    decreases |a|
  {
    if a == [] {
      assert a + b == b;
    } else {
      assert (a + b)[1..] == a[1..] + b;
      ReadCountAppend(a[1..], b, buf);
    }
  }

  /** A trace without readbacks counts none of any buffer. */
  lemma {:induction false} NoReadbackCountsNone(tr: seq<Event>, buf: Buffer)
    requires NoReadback(tr)
    ensures ReadCount(tr, buf) == 0
    decreases |tr|
  {
    if tr != [] {
      assert tr[0] in tr;
      assert forall e | e in tr[1..] :: e in tr;
      NoReadbackCountsNone(tr[1..], buf);
    }
  }

  /** Every readback of a step sits in its output phase. */
  lemma AssembleReadCount(c: seq<Event>, r: seq<Event>, q: seq<Event>, v: seq<Event>,
                          cp: seq<Event>, rb: seq<Event>, o: seq<Event>, particles: bool, buf: Buffer)
    requires PhaseShapes(c, r, q, v, cp, rb, o, particles)
    ensures ReadCount(Assemble(c, r, q, v, cp, rb, o), buf) == ReadCount(o, buf)
  {
    var x := c + r + q + (v + cp + rb) + DRAIN;
    PhaseShapeAvoids(c, r, q, v, cp, rb, o, particles);
    NoReadbackAppend(c, r);
    NoReadbackAppend(c + r, q);
    NoReadbackAppend(v, cp);
    NoReadbackAppend(v + cp, rb);
    NoReadbackAppend(c + r + q, v + cp + rb);
    NoReadbackAppend(c + r + q + (v + cp + rb), DRAIN);
    NoReadbackCountsNone(x, buf);
    ReadCountAppend(x, o, buf);
  }

  /** The output phase reads the velocity once per due output (video frame,
      shear-stress sample) and the relaxation time once per shear sample. */
  lemma OutputReadCounts(p: Params, t: int)
    requires FrequenciesUsable(p)
    ensures ReadCount(OutputPhase(p, t), U)
      == (if t % p.videoFreq == 0 then 1 else 0) + (if t % p.shearStressFreq == 0 then 1 else 0)
    ensures ReadCount(OutputPhase(p, t), TauLb) == if t % p.shearStressFreq == 0 then 1 else 0
  {
    var video := if t % p.videoFreq == 0 then [Read(GPU, U)] else [];
    var shear := if t % p.shearStressFreq == 0 then [Read(GPU, U), Read(GPU, TauLb)] else [];
    assert OutputPhase(p, t) == video + shear;
    ReadCountAppend(video, shear, U);
    ReadCountAppend(video, shear, TauLb);
    if video != [] {
      assert video[1..] == [];
    }
    if shear != [] {
      assert shear[1..] == [Read(GPU, TauLb)] && shear[1..][1..] == [];
    }
  }

  /** A step trace cut around each of its phases. */
  lemma AssembleSplits(c: seq<Event>, r: seq<Event>, q: seq<Event>, v: seq<Event>,
                       cp: seq<Event>, rb: seq<Event>, o: seq<Event>)
    ensures Assemble(c, r, q, v, cp, rb, o) == c + r + (q + (v + cp + rb) + DRAIN + o)
    ensures Assemble(c, r, q, v, cp, rb, o) == c + r + q + ((v + cp + rb) + DRAIN + o)
    ensures Assemble(c, r, q, v, cp, rb, o) == c + r + q + v + (cp + rb + DRAIN + o)
    ensures Assemble(c, r, q, v, cp, rb, o) == c + r + q + v + cp + (rb + DRAIN + o)
  {
    var x := c + r + q;
    AppendAssoc(x, v + cp + rb, DRAIN);
    AppendAssoc(x, (v + cp + rb) + DRAIN, o);
    AppendAssoc(c + r, q, (v + cp + rb) + DRAIN + o);
    AppendAssoc(v, cp, rb);
    AppendAssoc(x, v, cp + rb);
    AppendAssoc(x + v, cp + rb, DRAIN);
    AppendAssoc(x + v, cp + rb + DRAIN, o);
    AppendAssoc(x + v, cp, rb);
    AppendAssoc(x + v + cp, rb, DRAIN);
    AppendAssoc(x + v + cp, rb + DRAIN, o);
  }

  /** With particles, both queues are drained between every earlier launch
      and the reset of the particle-fluid forces. */
  lemma ResetAfterDrain(c: seq<Event>, r: seq<Event>, q: seq<Event>, v: seq<Event>,
                        cp: seq<Event>, rb: seq<Event>, o: seq<Event>, particles: bool)
    requires PhaseShapes(c, r, q, v, cp, rb, o, particles)
    ensures ResetAfterDrainIn(Assemble(c, r, q, v, cp, rb, o))
  {
    var tr := Assemble(c, r, q, v, cp, rb, o);
    var K := ResetParticleFluidForces;
    var rest := q + (v + cp + rb) + DRAIN + o;
    PhaseShapeAvoids(c, r, q, v, cp, rb, o, particles);
    AssembleSplits(c, r, q, v, cp, rb, o);
    AvoidsAppend(v, cp, K);
    AvoidsAppend(v + cp, rb, K);
    AvoidsAppend(q, v + cp + rb, K);
    AvoidsAppend(q + (v + cp + rb), DRAIN, K);
    AvoidsAppend(q + (v + cp + rb) + DRAIN, o, K);
    if particles {
      forall k | 0 <= k < |tr| && IsEnqueueOf(tr[k], K)
        ensures DrainedBefore(tr, k)
      {
        EnqueueWithin(c, r, rest, K, k);
        assert tr[1] == Finish(CPU) && tr[2] == Finish(GPU);
      }
    } else {
      AvoidsAppend(c, r, K);
      AvoidsAppend(c + r, rest, K);
      NoEnqueueAt(tr, K);
    }
  }

  /** Both queues are drained between the periodic stream and every launch
      of the velocity kernel, which all come after it. */
  lemma PeriodicDrainedBeforeVelocity(c: seq<Event>, r: seq<Event>, q: seq<Event>, v: seq<Event>,
                                      cp: seq<Event>, rb: seq<Event>, o: seq<Event>, particles: bool)
    requires PhaseShapes(c, r, q, v, cp, rb, o, particles)
    ensures PeriodicDrainedBeforeVelocityIn(Assemble(c, r, q, v, cp, rb, o))
  {
    var tr := Assemble(c, r, q, v, cp, rb, o);
    var BP, BV := BoundaryPeriodic, BoundaryVelocity;
    var after := (v + cp + rb) + DRAIN + o;
    var tail := cp + rb + DRAIN + o;
    PhaseShapeAvoids(c, r, q, v, cp, rb, o, particles);
    AssembleSplits(c, r, q, v, cp, rb, o);
    AvoidsAppend(c, r, BP);
    AvoidsAppend(v, cp, BP);
    AvoidsAppend(v + cp, rb, BP);
    AvoidsAppend(v + cp + rb, DRAIN, BP);
    AvoidsAppend(v + cp + rb + DRAIN, o, BP);
    AvoidsAppend(c, r, BV);
    AvoidsAppend(c + r, q, BV);
    AvoidsAppend(cp, rb, BV);
    AvoidsAppend(cp + rb, DRAIN, BV);
    AvoidsAppend(cp + rb + DRAIN, o, BV);
    forall j, k | 0 <= j < |tr| && 0 <= k < |tr|
        && IsEnqueueOf(tr[j], BP) && IsEnqueueOf(tr[k], BV)
      ensures j < k && DrainedBetween(tr, j, k)
    {
      EnqueueWithin(c + r, q, after, BP, j);
      EnqueueWithin(c + r + q, v, tail, BV, k);
      assert tr[j + 1] == Finish(GPU) && tr[j + 2] == Finish(CPU);
    }
  }

  /** With particles, the GPU queue is drained between the surface-point
      force launch and the summation launch, which comes after it. */
  lemma StencilDrainedBeforeSum(c: seq<Event>, r: seq<Event>, q: seq<Event>, v: seq<Event>,
                                cp: seq<Event>, rb: seq<Event>, o: seq<Event>, particles: bool)
    requires PhaseShapes(c, r, q, v, cp, rb, o, particles)
    ensures StencilDrainedBeforeSumIn(Assemble(c, r, q, v, cp, rb, o))
  {
    var tr := Assemble(c, r, q, v, cp, rb, o);
    var PF, SF := ParticleFluidForcesLinearStencil, SumParticleFluidForces;
    var before := c + r + q + v;
    var after := rb + DRAIN + o;
    PhaseShapeAvoids(c, r, q, v, cp, rb, o, particles);
    AssembleSplits(c, r, q, v, cp, rb, o);
    AvoidsAppend(c, r, PF);
    AvoidsAppend(c + r, q, PF);
    AvoidsAppend(c + r + q, v, PF);
    AvoidsAppend(rb, DRAIN, PF);
    AvoidsAppend(rb + DRAIN, o, PF);
    if particles {
      AvoidsAppend(c, r, SF);
      AvoidsAppend(c + r, q, SF);
      AvoidsAppend(c + r + q, v, SF);
      AvoidsAppend(rb, DRAIN, SF);
      AvoidsAppend(rb + DRAIN, o, SF);
      forall j, k | 0 <= j < |tr| && 0 <= k < |tr|
          && IsEnqueueOf(tr[j], PF) && IsEnqueueOf(tr[k], SF)
        ensures j < k && exists m :: j < m < k && tr[m] == Finish(GPU)
      {
        EnqueueWithin(before, cp, after, PF, j);
        EnqueueWithin(before, cp, after, SF, k);
        assert tr[j + 1] == Finish(GPU);
      }
    } else {
      AvoidsAppend(before, cp, PF);
      AvoidsAppend(before + cp, after, PF);
      NoEnqueueAt(tr, PF);
    }
  }

  /** The readbacks are exactly the events after the final drain. */
  lemma ReadbacksAfterDrain(c: seq<Event>, r: seq<Event>, q: seq<Event>, v: seq<Event>,
                            cp: seq<Event>, rb: seq<Event>, o: seq<Event>, particles: bool)
    requires PhaseShapes(c, r, q, v, cp, rb, o, particles)
    ensures ReadbacksDrainedIn(Assemble(c, r, q, v, cp, rb, o))
    ensures forall e :: e in Assemble(c, r, q, v, cp, rb, o) && e.Read? <==> e in o
  {
    var tr := Assemble(c, r, q, v, cp, rb, o);
    var x := c + r + q + (v + cp + rb);
    PhaseShapeAvoids(c, r, q, v, cp, rb, o, particles);
    NoReadbackAppend(c, r);
    NoReadbackAppend(c + r, q);
    NoReadbackAppend(v, cp);
    NoReadbackAppend(v + cp, rb);
    NoReadbackAppend(c + r + q, v + cp + rb);
    assert tr[|x|] == Finish(GPU) && tr[|x| + 1] == Finish(CPU);
    forall k | 0 <= k < |tr| && tr[k].Read?
      ensures DrainedBefore(tr, k)
    {
      IndexInto(x, DRAIN, o, k);
      forall j | 0 <= j < k && j < |tr| && tr[j].Enqueue?
        ensures DrainedBetween(tr, j, k)
      {
        IndexInto(x, DRAIN, o, j);
      }
    }
  }

  /** Every launch of the velocity phase is a velocity launch, and it reads nothing back. */
  lemma VelocityPhaseShape(p: Params, tbl: ArgTable)
    ensures OnlyLaunches(VelocityPhase(p, tbl), BoundaryVelocity) && NoReadback(VelocityPhase(p, tbl))
  {
    if HasVelocityBoundary(p) {
      TangentialPassesOnePerFlaggedAxis(p, ArgsOf(tbl, BoundaryVelocity), 3);
    }
  }

  /** Every launch of the rebuild is the zone update, and it reads nothing back. */
  lemma RebuildShape(p: Params, t: int, tbl: ArgTable)
    requires FrequenciesUsable(p)
    ensures OnlyLaunches(RebuildIfDue(p, t, tbl), UpdateParticleZones) && NoReadback(RebuildIfDue(p, t, tbl))
  {
    ZoneCountResetsZeroEachZone(TotalNumZones(p));
    var z := ZoneCountResets(TotalNumZones(p));
    forall e | e in z ensures e.HostWrite? {
      var i :| 0 <= i < |z| && z[i] == e;
    }
  }

  /** The phases of step t run with table `tbl` have the shapes the barrier
      facts need. */
  lemma StepPhaseShapes(p: Params, t: int, tbl: ArgTable)
    requires FrequenciesUsable(p)
    ensures PhaseShapes(CollidePhase(p, tbl), ResetPhase(p, tbl), PeriodicPhase(p, tbl),
      VelocityPhase(p, tbl), CouplingPhase(p, tbl), RebuildIfDue(p, t, tbl), OutputPhase(p, t),
      UsingParticles(p))
  {
    VelocityPhaseShape(p, tbl);
    RebuildShape(p, t, tbl);
  }

  /** The barriers of one iteration of the main loop: both queues drained
      before the force reset; both drained between the periodic stream and
      the velocity passes; the GPU queue drained between the surface-point
      forces and their summation; both drained before every readback. */
  lemma StepBarriers(p: Params, t: int, tbl: ArgTable)
    requires FrequenciesUsable(p)
    ensures ResetAfterDrainIn(StepTraceWith(p, t, tbl))
    ensures PeriodicDrainedBeforeVelocityIn(StepTraceWith(p, t, tbl))
    ensures StencilDrainedBeforeSumIn(StepTraceWith(p, t, tbl))
    ensures ReadbacksDrainedIn(StepTraceWith(p, t, tbl))
  {
    var c, r, q := CollidePhase(p, tbl), ResetPhase(p, tbl), PeriodicPhase(p, tbl);
    var v, cp, rb, o := VelocityPhase(p, tbl), CouplingPhase(p, tbl), RebuildIfDue(p, t, tbl), OutputPhase(p, t);
    StepPhaseShapes(p, t, tbl);
    assert StepTraceWith(p, t, tbl) == Assemble(c, r, q, v, cp, rb, o);
    ResetAfterDrain(c, r, q, v, cp, rb, o, UsingParticles(p));
    PeriodicDrainedBeforeVelocity(c, r, q, v, cp, rb, o, UsingParticles(p));
    StencilDrainedBeforeSum(c, r, q, v, cp, rb, o, UsingParticles(p));
    ReadbacksAfterDrain(c, r, q, v, cp, rb, o, UsingParticles(p));
  }

  /** The readbacks of step t: velocity exactly when a video frame or a
      shear-stress sample is due, the relaxation time exactly when a
      shear-stress sample is due, and nothing else. */
  lemma StepReadbacks(p: Params, t: int, tbl: ArgTable)
    requires FrequenciesUsable(p)
    ensures var tr := StepTraceWith(p, t, tbl);
      && (Read(GPU, U) in tr <==> t % p.videoFreq == 0 || t % p.shearStressFreq == 0)
      && (Read(GPU, TauLb) in tr <==> t % p.shearStressFreq == 0)
      && forall e :: e in tr && e.Read? ==> e == Read(GPU, U) || e == Read(GPU, TauLb)
    ensures ReadCount(StepTraceWith(p, t, tbl), U)
      == (if t % p.videoFreq == 0 then 1 else 0) + (if t % p.shearStressFreq == 0 then 1 else 0)
    ensures ReadCount(StepTraceWith(p, t, tbl), TauLb) == if t % p.shearStressFreq == 0 then 1 else 0
  {
    var c, r, q := CollidePhase(p, tbl), ResetPhase(p, tbl), PeriodicPhase(p, tbl);
    var v, cp, rb, o := VelocityPhase(p, tbl), CouplingPhase(p, tbl), RebuildIfDue(p, t, tbl), OutputPhase(p, t);
    StepPhaseShapes(p, t, tbl);
    assert StepTraceWith(p, t, tbl) == Assemble(c, r, q, v, cp, rb, o);
    ReadbacksAfterDrain(c, r, q, v, cp, rb, o, UsingParticles(p));
    var video := if t % p.videoFreq == 0 then [Read(GPU, U)] else [];
    var shear := if t % p.shearStressFreq == 0 then [Read(GPU, U), Read(GPU, TauLb)] else [];
    assert o == video + shear;
    assert t % p.videoFreq == 0 ==> Read(GPU, U) in video;
    assert t % p.shearStressFreq == 0 ==> Read(GPU, U) in shear && Read(GPU, TauLb) in shear;
    AssembleReadCount(c, r, q, v, cp, rb, o, UsingParticles(p), U);
    AssembleReadCount(c, r, q, v, cp, rb, o, UsingParticles(p), TauLb);
    OutputReadCounts(p, t);
  }
}

=== FILE: step_props.dfy ===
/** Properties of the trace of one iteration of the main loop: which
    buffers the fluid kernels are bound to, which kernels run, where the
    queue barriers sit, and which readbacks happen. */
module StepProperties {
  import opened Geometry
  import opened Trace
  import opened Schedule
  import opened TangentialProperties

  /** The kernels a trace enqueues. */
  function EnqueuedKernels(tr: seq<Event>): set<Kernel>
  {
    set e | e in tr && e.Enqueue? :: e.kernel
  }

  /** Every enqueue before position k was followed by a finish of both
      queues before position k. */
  predicate DrainedBefore(tr: seq<Event>, k: int)
  {
    forall j :: 0 <= j < k && j < |tr| && tr[j].Enqueue? ==> DrainedBetween(tr, j, k)
  }

  lemma EnqueuedKernelsAppend(a: seq<Event>, b: seq<Event>)
    ensures EnqueuedKernels(a + b) == EnqueuedKernels(a) + EnqueuedKernels(b)
  {
    forall k | k in EnqueuedKernels(a + b)
      ensures k in EnqueuedKernels(a) + EnqueuedKernels(b)
    {
      var e :| e in a + b && e.Enqueue? && e.kernel == k;
    }
    forall k | k in EnqueuedKernels(a) + EnqueuedKernels(b)
      ensures k in EnqueuedKernels(a + b)
    {
      if k in EnqueuedKernels(a) {
        var e :| e in a && e.Enqueue? && e.kernel == k;
        assert e in a + b;
      } else {
        var e :| e in b && e.Enqueue? && e.kernel == k;
        assert e in a + b;
      }
    }
  }

  /** The zone-count stores zero zones 0..n-1, one store each, in index order. */
  lemma {:induction false} ZoneCountResetsZeroEachZone(n: nat)
    ensures |ZoneCountResets(n)| == n
    ensures forall i :: 0 <= i < n ==> ZoneCountResets(n)[i] == HostWrite(NumParInZone, i, 0)
  {
    if n > 0 {
      ZoneCountResetsZeroEachZone(n - 1);
    }
  }

  /** The rebuild maps the counts, zeroes every zone in order, unmaps,
      launches the zone update over the worker groups on the CPU queue, and
      waits for it. */
  lemma RebuildPhaseOrder(p: Params, tbl: ArgTable)
    ensures var r := RebuildPhase(p, tbl); var z := TotalNumZones(p);
      && |r| == z + 4
      && r[0] == Map(CPU, NumParInZone)
      && (forall i :: 0 <= i < z ==> r[1 + i] == HostWrite(NumParInZone, i, 0))
      && r[z + 1] == Unmap(CPU, NumParInZone)
      && IsEnqueueOf(r[z + 2], UpdateParticleZones) && r[z + 2].queue == CPU
      && r[z + 2].range == Linear(NumParThreads(p))
      && r[z + 3] == Finish(CPU)
  {
    ZoneCountResetsZeroEachZone(TotalNumZones(p));
  }

  /** The fluid phases at the head of a step launch collide-stream, the
      force reset (with particles only) and the periodic stream. */
  lemma HeadKernels(p: Params, tbl: ArgTable)
    ensures EnqueuedKernels(CollidePhase(p, tbl)) == {CollideStream}
    ensures EnqueuedKernels(ResetPhase(p, tbl)) == if UsingParticles(p) then {ResetParticleFluidForces} else {}
    ensures EnqueuedKernels(PeriodicPhase(p, tbl)) == {BoundaryPeriodic}
  {
    assert CollidePhase(p, tbl)[0] in CollidePhase(p, tbl);
    assert PeriodicPhase(p, tbl)[0] in PeriodicPhase(p, tbl);
    if UsingParticles(p) {
      assert ResetPhase(p, tbl)[2] in ResetPhase(p, tbl);
    }
  }

  /** The velocity phase launches only the velocity kernel, and does so
      exactly when some axis is a velocity axis. */
  lemma VelocityKernels(p: Params, tbl: ArgTable)
    ensures EnqueuedKernels(VelocityPhase(p, tbl)) == if HasVelocityBoundary(p) then {BoundaryVelocity} else {}
  {
    if HasVelocityBoundary(p) {
      var a := ArgsOf(tbl, BoundaryVelocity);
      TangentialPassesOnePerFlaggedAxis(p, a, 3);
      var v := VelocityPhase(p, tbl);
      assert v[0] in v;
    }
  }

  /** The coupling phase launches the two force kernels, with particles only. */
  lemma CouplingKernels(p: Params, tbl: ArgTable)
    ensures EnqueuedKernels(CouplingPhase(p, tbl))
      == if UsingParticles(p) then {ParticleFluidForcesLinearStencil, SumParticleFluidForces} else {}
  {
    if UsingParticles(p) {
      var c := CouplingPhase(p, tbl);
      assert c[0] in c && c[2] in c;
    }
  }

  /** The rebuild launches the zone update, on the steps due for a rebuild
      only; the readbacks launch nothing. */
  lemma TailKernels(p: Params, t: int, tbl: ArgTable)
    requires FrequenciesUsable(p)
    ensures EnqueuedKernels(RebuildIfDue(p, t, tbl)) == if RebuildsAt(p, t) then {UpdateParticleZones} else {}
    ensures EnqueuedKernels(OutputPhase(p, t)) == {}
  {
    if RebuildsAt(p, t) {
      ZoneCountResetsZeroEachZone(TotalNumZones(p));
      var r := RebuildPhase(p, tbl);
      assert r[TotalNumZones(p) + 2] in r;
      forall e | e in r && e.Enqueue? ensures e.kernel == UpdateParticleZones {
        var j :| 0 <= j < |r| && r[j] == e;
      }
    }
  }

  /** The kernels enqueued by the drain: none. */
  lemma DrainLaunchesNothing()
    ensures EnqueuedKernels(DRAIN) == {}
  {
    assert forall e | e in DRAIN :: e.Finish?;
  }

  /** The kernels of a trace assembled the way a step is. */
  lemma EnqueuedKernelsOfSteps(c: seq<Event>, r: seq<Event>, q: seq<Event>, v: seq<Event>,
                               cp: seq<Event>, rb: seq<Event>, o: seq<Event>)
    ensures EnqueuedKernels(c + r + q + (v + cp + rb) + DRAIN + o)
      == EnqueuedKernels(c) + EnqueuedKernels(r) + EnqueuedKernels(q) + EnqueuedKernels(v)
       + EnqueuedKernels(cp) + EnqueuedKernels(rb) + EnqueuedKernels(o)
  {
    DrainLaunchesNothing();
    EnqueuedKernelsAppend(c, r);
    EnqueuedKernelsAppend(c + r, q);
    EnqueuedKernelsAppend(v, cp);
    EnqueuedKernelsAppend(v + cp, rb);
    EnqueuedKernelsAppend(c + r + q, v + cp + rb);
    EnqueuedKernelsAppend(c + r + q + (v + cp + rb), DRAIN);
    EnqueuedKernelsAppend(c + r + q + (v + cp + rb) + DRAIN, o);
  }

  /** The kernel set of a step, given the kernel sets of its phases. */
  lemma StepKernelsFromPhases(c: seq<Event>, r: seq<Event>, q: seq<Event>, v: seq<Event>,
                              cp: seq<Event>, rb: seq<Event>, o: seq<Event>,
                              vel: bool, particles: bool, rebuild: bool)
    requires EnqueuedKernels(c) == {CollideStream}
    requires EnqueuedKernels(r) == if particles then {ResetParticleFluidForces} else {}
    requires EnqueuedKernels(q) == {BoundaryPeriodic}
    requires EnqueuedKernels(v) == if vel then {BoundaryVelocity} else {}
    requires EnqueuedKernels(cp)
      == if particles then {ParticleFluidForcesLinearStencil, SumParticleFluidForces} else {}
    requires EnqueuedKernels(rb) == if rebuild then {UpdateParticleZones} else {}
    requires EnqueuedKernels(o) == {}
    ensures EnqueuedKernels(c + r + q + (v + cp + rb) + DRAIN + o)
      == {CollideStream, BoundaryPeriodic}
       + (if vel then {BoundaryVelocity} else {})
       + (if particles
          then {ResetParticleFluidForces, ParticleFluidForcesLinearStencil, SumParticleFluidForces}
          else {})
       + (if rebuild then {UpdateParticleZones} else {})
  {
    EnqueuedKernelsOfSteps(c, r, q, v, cp, rb, o);
  }

  /** The kernels a step launches: collide-stream and the periodic stream
      always, the velocity kernel exactly when some axis is a velocity axis,
      the three force kernels exactly when there are particles, the zone
      update exactly on rebuild steps, and never the particle dynamics or
      particle-particle force kernels. */
  lemma StepKernels(p: Params, t: int, tbl: ArgTable)
    requires FrequenciesUsable(p)
    ensures EnqueuedKernels(StepTraceWith(p, t, tbl))
      == {CollideStream, BoundaryPeriodic}
       + (if HasVelocityBoundary(p) then {BoundaryVelocity} else {})
       + (if UsingParticles(p)
          then {ResetParticleFluidForces, ParticleFluidForcesLinearStencil, SumParticleFluidForces}
          else {})
       + (if RebuildsAt(p, t) then {UpdateParticleZones} else {})
  {
    HeadKernels(p, tbl);
    VelocityKernels(p, tbl);
    CouplingKernels(p, tbl);
    TailKernels(p, t, tbl);
    StepKernelsFromPhases(CollidePhase(p, tbl), ResetPhase(p, tbl), PeriodicPhase(p, tbl),
      VelocityPhase(p, tbl), CouplingPhase(p, tbl), RebuildIfDue(p, t, tbl), OutputPhase(p, t),
      HasVelocityBoundary(p), UsingParticles(p), RebuildsAt(p, t));
  }
}

=== FILE: tangential_props.dfy ===
/** Properties of the experimental tangential velocity passes of one step. */
module TangentialProperties {
  import opened Geometry
  import opened Trace
  import opened Schedule

  /** The axes below n whose `TangentialVelBC` flag requests a pass. */
  function FlaggedAxes(p: Params, n: nat): set<nat>
    requires n <= 3
  {
    set i: nat | i < n && p.tangentialVelBC[i] == TANGENTIAL_FLAG
  }

  /** The axis a velocity-kernel launch was given in slot 3 (-1 if none). */
  function PassAxis(e: Event): int
  {
    if e.Enqueue? && 3 in e.args && e.args[3].Int? then e.args[3].n else -1
  }

  /** There is one pass per flagged axis. */
  lemma {:induction false} TangentialPassCount(p: Params, a: KernelArgs, n: nat)
    requires n <= 3
    ensures |TangentialPasses(p, a, n)| == |FlaggedAxes(p, n)|
  {
    if n > 0 {
      TangentialPassCount(p, a, n - 1);
      if p.tangentialVelBC[n - 1] == TANGENTIAL_FLAG {
        assert FlaggedAxes(p, n) == FlaggedAxes(p, n - 1) + {n - 1};
        assert n - 1 !in FlaggedAxes(p, n - 1);
      } else {
        assert FlaggedAxes(p, n) == FlaggedAxes(p, n - 1);
      }
    } else {
      assert FlaggedAxes(p, 0) == {};
    }
  }

  /** The passes are exactly the passes on the flagged axes below n. */
  lemma {:induction false} TangentialPassMembers(p: Params, a: KernelArgs, n: nat)
    requires n <= 3
    ensures forall e :: e in TangentialPasses(p, a, n) <==>
      exists i :: 0 <= i < n && p.tangentialVelBC[i] == TANGENTIAL_FLAG && e == TangentialPass(p, a, i)
  {
    if n > 0 {
      TangentialPassMembers(p, a, n - 1);
      var prev := TangentialPasses(p, a, n - 1);
      if p.tangentialVelBC[n - 1] == TANGENTIAL_FLAG {
        assert TangentialPasses(p, a, n) == prev + [TangentialPass(p, a, n - 1)];
      } else {
        assert TangentialPasses(p, a, n) == prev;
      }
    }
  }

  /** There is one pass per flagged axis and no other. */
  lemma TangentialPassesOnePerFlaggedAxis(p: Params, a: KernelArgs, n: nat)
    requires n <= 3
    ensures |TangentialPasses(p, a, n)| == |FlaggedAxes(p, n)|
    ensures forall e :: e in TangentialPasses(p, a, n) <==>
      exists i :: 0 <= i < n && p.tangentialVelBC[i] == TANGENTIAL_FLAG && e == TangentialPass(p, a, i)
  {
    TangentialPassCount(p, a, n);
    TangentialPassMembers(p, a, n);
  }

  /** The passes run in increasing axis order, each on an axis below n. */
  lemma {:induction false} TangentialPassesInAxisOrder(p: Params, a: KernelArgs, n: nat)
    requires n <= 3
    ensures forall e :: e in TangentialPasses(p, a, n) ==> 0 <= PassAxis(e) < n
    ensures forall j, k :: 0 <= j < k < |TangentialPasses(p, a, n)| ==>
      PassAxis(TangentialPasses(p, a, n)[j]) < PassAxis(TangentialPasses(p, a, n)[k])
  {
    if n > 0 {
      TangentialPassesInAxisOrder(p, a, n - 1);
      var prev := TangentialPasses(p, a, n - 1);
      if p.tangentialVelBC[n - 1] == TANGENTIAL_FLAG {
        var last := TangentialPass(p, a, n - 1);
        assert PassAxis(last) == n - 1;
        assert TangentialPasses(p, a, n) == prev + [last];
        forall j, k | 0 <= j < k < |prev| + 1
          ensures PassAxis((prev + [last])[j]) < PassAxis((prev + [last])[k])
        {
          if k == |prev| {
            assert (prev + [last])[j] == prev[j] && prev[j] in prev;
          }
        }
      }
    }
  }

  /** The launch of the pass on axis i: two nodes across axis i and the
      interior along axes (i+1)%3 and (i+2)%3, axis i in slot 3, density
      flag 0 in slot 4, every other slot as in the wall configuration `a`. */
  lemma TangentialPassShape(p: Params, a: KernelArgs, i: nat)
    requires i < 3
    ensures var e := TangentialPass(p, a, i);
      && e.kernel == BoundaryVelocity && e.queue == GPU
      && e.range.Grid? && e.range.offset == LATTICE_OFFSET && |e.range.extent| == 3
      && e.range.extent[i] == 2
      && e.range.extent[(i + 1) % 3] == SizeT(p.latticeSize[(i + 1) % 3] - 2)
      && e.range.extent[(i + 2) % 3] == SizeT(p.latticeSize[(i + 2) % 3] - 2)
      && e.args[3] == Int(i) && e.args[4] == Int(TAN_CALC_RHO) && PassAxis(e) == i
      && (forall s :: s != 3 && s != 4 ==> (s in e.args <==> s in a))
      && (forall s :: s in a && s != 3 && s != 4 ==> e.args[s] == a[s])
  {
  }
}

=== FILE: trace.dfy ===
/** The abstract view of the OpenCL calls the host loop makes: the kernel
    argument table that `clSetKernelArg` overwrites, and the log of queue
    operations appended in program order. */
module Trace {

  /** The kernels the host binds arguments to. */
  datatype Kernel =
    | CollideStream
    | BoundaryVelocity
    | BoundaryPeriodic
    | ParticleFluidForcesLinearStencil
    | SumParticleFluidForces
    | ResetParticleFluidForces
    | ParticleParticleForces
    | ParticleDynamics
    | UpdateParticleZones

  /** The two command queues: one on the CPU device, one on the GPU device. */
  datatype Queue = CPU | GPU

  /** The device memory objects (`LIST_OF_CL_MEM`). */
  datatype Buffer =
    | FA | FB | U | Gpf | CountPoint | TauLb
    | ParKin | ParForce | ParFluidForce | ParsZone | ZoneMembers | NumParInZone
    | ParFluidForceSum | ThreadMembers | NumParInThread | ZoneDat
    | IntDat | FlpDat | StrMap | SpherePoints

  datatype Access = ReadWrite | ReadOnly

  /** A kernel argument: a memory object or a `cl_int` passed by value. */
  datatype Value = Mem(buf: Buffer) | Int(n: int)

  /** The NDRange of a launch: a 3D range with offset, a 1D range, or a 1D
      range tiled into work groups of a given size. */
  datatype Range =
    | Grid(offset: seq<nat>, extent: seq<nat>)
    | Linear(items: nat)
    | Tiled(total: nat, group: nat)

  /** One host-side call into OpenCL. An enqueue carries the argument
      values of its kernel at the moment of the call, which are the values
      the launch uses. */
  datatype Event =
    | Create(buf: Buffer, access: Access)
    | Write(queue: Queue, buf: Buffer)
    | Enqueue(kernel: Kernel, queue: Queue, range: Range, args: map<nat, Value>)
    | Finish(queue: Queue)
    | Map(queue: Queue, buf: Buffer)
    | HostWrite(buf: Buffer, index: nat, value: int)
    | Unmap(queue: Queue, buf: Buffer)
    | Read(queue: Queue, buf: Buffer)

  type KernelArgs = map<nat, Value>

  /** The argument slots of every kernel. */
  type ArgTable = map<Kernel, KernelArgs>

  /** The current arguments of kernel k (none bound yet: the empty map). */
  function ArgsOf(tbl: ArgTable, k: Kernel): KernelArgs
  {
    if k in tbl then tbl[k] else map[]
  }

  /** `clSetKernelArg(k, slot, v)`. */
  function SetArg(tbl: ArgTable, k: Kernel, slot: nat, v: Value): ArgTable
  {
    tbl[k := ArgsOf(tbl, k)[slot := v]]
  }

  /** `clSetKernelArg` overwrites one slot of one kernel and nothing else. */
  lemma SetArgOverwritesOneSlot(tbl: ArgTable, k: Kernel, slot: nat, v: Value)
    ensures slot in ArgsOf(SetArg(tbl, k, slot, v), k) && ArgsOf(SetArg(tbl, k, slot, v), k)[slot] == v
    ensures forall k' :: k' != k ==> ArgsOf(SetArg(tbl, k, slot, v), k') == ArgsOf(tbl, k')
    ensures forall s :: s != slot ==>
      && (s in ArgsOf(SetArg(tbl, k, slot, v), k) <==> s in ArgsOf(tbl, k))
      && (s in ArgsOf(tbl, k) ==> ArgsOf(SetArg(tbl, k, slot, v), k)[s] == ArgsOf(tbl, k)[s])
  {
  }

  /** Concatenation of traces regrouped to the right. */
  lemma AppendAssoc(a: seq<Event>, b: seq<Event>, c: seq<Event>)
    ensures a + b + c == a + (b + c)
  {
  }

  predicate IsEnqueueOf(e: Event, k: Kernel)
  {
    e.Enqueue? && e.kernel == k
  }

  /** Both queues were finished at some point strictly between positions i and k. */
  predicate DrainedBetween(tr: seq<Event>, i: int, k: int)
  {
    && (exists j :: i < j < k && 0 <= j < |tr| && tr[j] == Finish(GPU))
    && (exists j :: i < j < k && 0 <= j < |tr| && tr[j] == Finish(CPU))
  }
}
